=== FILE: README.md ===
# extract_fits in Dafny

A functional model of `extract_fits.py`. The script turns FITS files of
limb observations into plain-text inputs for a retrieval code. For every
directory entry whose name contains `.fits`, it:

- derives an output root from the text after the first `table` in the name;
- recreates that root and its `input/` sub-directory;
- writes `information.txt`;
- writes the FP3 and then the FP4 limb spectra, one `.spe` file per
  truncated altitude, each opened in append mode;
- writes eleven atmospheric profiles. Each profile keeps only the rows
  retrieved with a 1-sigma error.

The model plans instead of acting. `Extraction.Main` takes the directory
listing and the readable containers and returns an `Outcome`: the
operations issued in order (messages, directory resets, `makedirs`, file
writes in create or append mode), plus the exception that ended the run,
if any. `FileSystem.Exec` then gives those operations their meaning on an
abstract file tree. That is how the properties about file contents
(append mode, stale output, nothing outside the root) are stated.

Modules:

- `Base`: `Option`, `Result` and the Python exceptions the script can raise.
- `Seqs`: order-preserving filtering.
- `Strings`: Python's substring test, `str.split`, the `[:-5]` slice, and
  `str` of an integer with its parser.
- `Tables`: abstract FITS binary tables, field lookup by name, and `int()`
  of a float.
- `Plan`: output lines, operations, outcomes, and sequencing that stops at
  the first exception.
- `FileSystem`: the file tree and what running a plan does to it.
- `Spectra`: `extract_and_save_spectra`.
- `Profiles`: `extract_and_save_profile`.
- `Extraction`: `main`. This covers entry selection, the output root, the
  per-file pipeline and the fixed profile list.

Two behaviours of the code are worth stating up front:

- **Altitude rows.** The code needs at least as many altitude rows as
  spectrum columns: extra rows are ignored, and too few raise `IndexError`
  part way through the loop, after the earlier blocks were already
  appended (`Spectra.Columns`, `Spectra.Extract`).
- **No FITS file.** When no entry qualifies, `message_error` prints the
  warning and returns. The bare `exit` on its last line is never called.
  The run then reaches an empty loop and ends normally
  (`Extraction.WarningOnlyWithoutFits`, `Extraction.NoFitsLeavesTreeAlone`).

The root derivation does exactly what the code says. A segment of five
characters or fewer after the first `table` (for example in `table.fits`)
gives the root `/`. The recreation step then applies `rmtree` to the
file-system root (`Extraction.ShortSegmentRoot`). In the same way
`table..fits` gives `./` and `table...fits` gives `../`
(`Extraction.DotDirRoots`), so `rmtree`
empties the working directory, `.fits` inputs included, or its parent.

## Model

| member | source | states |
|---|---|---|
| Extraction.FitsSelection | extract_fits.py:67 | an entry is processed exactly when `.fits` occurs anywhere in its name, as many times as it is listed |
| Extraction.FitsInListingOrder | extract_fits.py:66-67 | the selected entries keep the order of the listing: selecting from a concatenation concatenates the selections |
| Extraction.NonFitsEntryIgnored | extract_fits.py:67 | inserting an entry without `.fits` anywhere in the listing leaves the whole run unchanged |
| Extraction.WarningOnlyWithoutFits | extract_fits.py:70-73 | with no qualifying entry the run is exactly the warning and ends without an exception; otherwise it prints nothing and is the loop over the selected entries |
| Extraction.NoFitsLeavesTreeAlone | extract_fits.py:15-17 | since `message_error` does not halt or raise, a listing without `.fits` entries leaves any file tree exactly as it was, with no error |
| Extraction.RunAllSequential | extract_fits.py:73 | entries are processed one after the other: running `a + b` is running `a`, then `b` only if `a` raised nothing |
| Extraction.OutputRoot | extract_fits.py:74 | the root fails with `IndexError` exactly when the name has no `table`; otherwise it ends with `/` |
| Extraction.RootOfJoin | extract_fits.py:74 | for pieces without `table` joined by `table`, the root is the second piece minus its last five characters, plus `/` |
| Extraction.ConventionalRoot | extract_fits.py:74 | `<prefix>table<id><5-character extension>`, with no other `table`, gives the root `<id>/` |
| Extraction.ExampleRoot | extract_fits.py:74 | `tableX42.fits` is extracted under `X42/` |
| Extraction.ShortSegmentRoot | extract_fits.py:74 | a segment of at most five characters after the only `table` gives the root `/` |
| Extraction.DotDirRoots | extract_fits.py:74-78 | the root of `table..fits` is `./`, the working directory, and that of `table...fits` is `../`, its parent; line 78 then empties them |
| Strings.SplitPieces | extract_fits.py:74 | `split` yields a single piece exactly when the separator is absent, and no piece contains the separator |
| Strings.SplitThenJoin | extract_fits.py:74 | joining the pieces of `split` with the separator gives back the string |
| Strings.JoinThenSplit | extract_fits.py:74 | for a non-empty separator whose first character occurs nowhere else in it (true of `table`), splitting a join of separator-free pieces gives back the pieces |
| Strings.DropLast | extract_fits.py:74 | `[:-k]` keeps a prefix that is `k` shorter, or is empty when the string has at most `k` characters |
| Strings.IntRoundTrip | extract_fits.py:48-49 | the decimal header line of a count or an altitude parses back to that integer |
| Strings.IntToStringInjective | extract_fits.py:45 | two integers have the same decimal text exactly when they are equal |
| Tables.Trunc | extract_fits.py:45 | `int()` truncates toward zero: the result lies within one of the value, on the side of zero |
| Tables.FieldIndex | extract_fits.py:57 | field lookup finds the first column with the name, and finds nothing exactly when no column has it |
| Extraction.PerFileFailures | extract_fits.py:74-87 | a name without `table` raises `IndexError` before any effect; an unreadable file fails after the two `makedirs`; a container without `SPECTRA_FP4` fails right after `information.txt` is created holding only the banner and the primary header, and one with `SPECTRA_FP4` but without `SPECTRA_FP3` fails with the FP4 part written as well |
| Extraction.Fp3AltitudeMissing | extract_fits.py:87-91 | with both spectrum extensions but no `ALTITUDE_FP3`, the entry raises `KeyError` naming it right after `information.txt` is complete, and `spectra_fp3` is never made |
| Extraction.Fp4AltitudeMissing | extract_fits.py:87-95 | with the FP3 spectra written but no `ALTITUDE_FP4`, the entry raises `KeyError` naming it and `spectra_fp4` is never made |
| Spectra.SpePathInjective | extract_fits.py:45 | two columns share a `.spe` file exactly when their truncated altitudes are equal |
| Spectra.SpePathUnder | extract_fits.py:45 | every `.spe` file lies inside the spectrum directory |
| Spectra.BlockLayout | extract_fits.py:47-51 | a block is the provenance line, then a line that reads back as the number of body lines, then one that reads back as the altitude, then one line per row pairing the wavenumber with column `1 + i` |
| Spectra.Columns | extract_fits.py:44-51 | the loop issues one append per column in column order, each going to its altitude's file; it ends normally exactly when every spectrum column has an altitude row, and raises `IndexError` otherwise |
| Spectra.Extract | extract_fits.py:38-52 | `makedirs` comes first; a table without rows raises `IndexError`; the call succeeds exactly when the tables are complete, and then it writes exactly one block per spectrum column (field count minus one, none when there is no field) |
| Spectra.SpectraWrittenPaths | extract_fits.py:44-45 | the files written, in order, are the `.spe` paths of the spectrum columns' truncated altitudes, one per column |
| Spectra.SpeFileContent | extract_fits.py:44-51 | in a fresh directory the `.spe` file of altitude `a` exists exactly when some column truncates to `a`, and holds the blocks of all such columns in column order |
| Spectra.UniqueAltitudeOneBlock | extract_fits.py:45-51 | a column whose truncated altitude no other column shares gets a file holding exactly its own block |
| Spectra.ExtractTouchesOnly | extract_fits.py:39-45 | the spectra of one directory touch only that directory and the paths inside it |
| Profiles.Kept | extract_fits.py:57-58 | the mask keeps only rows of the table whose `SIGMA` is 1, never more rows than there are |
| Profiles.KeptEmpty | extract_fits.py:57-59 | nothing is kept only when no row has `SIGMA` equal to 1 |
| Profiles.KeptMultiplicity | extract_fits.py:57-58 | each row with `SIGMA` 1 is kept as many times as it occurs, and every other row is dropped |
| Profiles.KeptInOrder | extract_fits.py:57-58 | the mask keeps the table's order: masking a concatenation concatenates the masked parts |
| Profiles.Lines | extract_fits.py:61 | one output line per kept row, in order, holding fields 1 to 4 |
| Profiles.Extract | extract_fits.py:55-61 | a missing `SIGMA` column raises `KeyError`; no confident row means no file; otherwise exactly one file `name.txt` is created with the projected confident rows in order; fewer than five columns raise `IndexError` |
| Profiles.FiveRowsThreeKept | extract_fits.py:57-61 | rows flagged 1, 0, 1, 1, 0 give one file with the projections of rows 0, 2 and 3, in that order |
| Profiles.ExtractCreatesOnly | extract_fits.py:59-61 | a profile call that raises nothing creates at most the one file `name.txt` |
| FileSystem.ExecAppends | extract_fits.py:45 | appends never fail and create exactly the files they name; each file ends up with its earlier content followed by everything appended to it, in order |
| FileSystem.ResetDirFresh | extract_fits.py:77-81 | recreating the root leaves it existing and empty, and nothing outside it changes |
| Extraction.PrepareRun | extract_fits.py:77-83 | the root and `root/input` are created without error; the root then holds nothing else, and nothing outside it changes |
| Extraction.Information | extract_fits.py:20-35 | the file is created and written in order and always holds a prefix of the whole text: without `SPECTRA_FP4` it raises `KeyError` with only the banner and the primary header written, without `SPECTRA_FP3` it raises `KeyError` with the FP4 part written too, and it raises nothing and holds the whole text exactly when both extensions exist |
| Extraction.InfoRun | extract_fits.py:87 | for a container with both spectrum extensions, `information.txt` is created holding the whole text; no directory and nothing outside the root changes |
| Extraction.SpectraStepWritten | extract_fits.py:89-95 | a focal plane that raises nothing had both its extensions and complete tables, and wrote exactly the reference list of `.spe` paths |
| Extraction.SpectraRun | extract_fits.py:89-95 | in a fresh directory each `.spe` file ends up holding exactly the blocks of its altitude |
| Extraction.ProfilesWritten | extract_fits.py:97-107 | the profile files written are `<root>input/<stem>_profile.txt` for each table with a confident row, in the fixed order of the eleven tables |
| Extraction.ProfilesFromWrites | extract_fits.py:97-107 | the profile calls only write, and only inside `root/input/` |
| Extraction.ProfileMissingStops | extract_fits.py:97-107 | the profile calls stop at the first missing extension with `KeyError` naming it, having issued exactly the operations of the calls before it |
| Extraction.ContainerWrites | extract_fits.py:87-107 | inside the open container the writes go to `information.txt`, then the FP3 spectra, then the FP4 spectra, then the profiles |
| Extraction.PerFileWriteOrder | extract_fits.py:77-107 | an entry that raises nothing first resets the root and creates `input/`, then writes in that fixed order |
| Extraction.ProfileStemsDistinct | extract_fits.py:97-107 | no two of the eleven profile calls share an output stem |
| Extraction.ProfileFileAfter | extract_fits.py:97-107 | a profile file absent before the profile calls ends up existing exactly when its table has a row with `SIGMA` 1, holding fields 1 to 4 of those rows in order, whatever the other calls write |
| Extraction.ProfileAbsentBefore | extract_fits.py:77-95 | after the reset, `information.txt` and both spectrum directories, no profile file exists yet |
| Extraction.PerFileRun | extract_fits.py:74-107 | for an entry that raises nothing, from any tree where the root is not a regular file and, unless it is a directory, has nothing under it: no `makedirs` fails; `information.txt` holds the whole text; every `.spe` file holds exactly its altitude's blocks; each of the eleven `<root>input/<stem>_profile.txt` files exists exactly when its table has a row with `SIGMA` 1 and then holds fields 1 to 4 of those rows in order; under the root a file exists exactly when the entry wrote it, so no stale spectrum or profile file survives; no path outside the root string changes |

## Left out

- Reading FITS files (`fits.open`, the HDU structure, headers) is left out because it belongs to astropy. A container is an abstract value: the text of `information.txt` in the three parts written before each extension access, and tables by extension name. Looking up a missing extension raises `KeyError` naming it.
- An entry that cannot be opened is modelled as an `OSError` raised after the two `makedirs`; the cause inside astropy is not modelled.
- Extension and column names are matched exactly; astropy's case-insensitive fallback is not modelled.
- The content of `information.txt` is an opaque list of lines: astropy's `repr` of a header slice and `str` of header values cannot be rendered here. Accessing the shift values is modelled only by the `KeyError` raised when an extension is missing, which leaves in the file the text written before that access. Header index errors (`header[8]`, `header[9]` on a short header) are left out.
- Numeric text formatting (`%7.2f %.4e` for the spectra, the default `savetxt` format for the profiles) is left out, since it is float formatting. Body lines carry their values instead.
- Table cells are exact reals, so IEEE floating point, NaN and infinities are not modelled. `int()` of a NaN or an infinity, which raises in Python, does not arise.
- `listdir` is a parameter of `Extraction.Main`, and the file tree is a parameter of `FileSystem.Exec`. Nothing is read from a real disk.
- Extraction.PerFileRun: "nothing outside the root changes" is meant by path string. For the roots `/`, `./` and `../` the real `rmtree` removes paths that do not start with the root string, so there the frame does not describe the real tree; the model does not resolve paths against the working directory.
- Paths are compared as written, without normalisation. `makedirs` is modelled as failing only when the path already exists; missing intermediate directories and permission errors are not modelled.
- Entries are processed in the order of the `listing` parameter of `Extraction.Main`, which stands for whatever order `listdir` returns; when two entries share a root, the later one's reset removes the earlier one's output. Clocks and concurrency do not arise in the script.
- The trailing `file_write.close()` after the `with` block has no effect on the outcome and is not modelled.

=== FILE: base.dfy ===
/** Failure-carrying datatypes shared by the whole model. */
module Base {

  datatype Option<+T> = None | Some(value: T)

  /** The Python exceptions the extraction script can raise on its own data.
      `OsError` stands for `fits.open` refusing a listed file that is not a
      readable FITS container. */
  datatype Error =
    | IndexError(what: string)
    | KeyError(key: string)
    | FileExistsError(path: string)
    | OsError(path: string)

  datatype Result<+T> = Success(value: T) | Failure(error: Error)
}

=== FILE: extraction.dfy ===
/** `main`: which directory entries are processed, where each one's output
    goes, and the fixed order of the per-file pipeline. */
module Extraction {
  import opened Base
  import opened Seqs
  import opened Strings
  import opened Tables
  import opened Plan
  import Spectra
  import Profiles
  import FileSystem

  /** What `message_error` prints when no entry qualifies. It returns
      normally: the bare `exit` on the next line is an expression, not a
      call, so the run goes on to an empty loop. */
  const NoFitsWarning: string := "Warning: no fits file in the current directory!"

  const FitsMarker: string := ".fits"
  const RootToken: string := "table"
  const InputDir: string := "input"
  const InfoFile: string := "information.txt"
  const Fp3Dir: string := "spectra_fp3"
  const Fp4Dir: string := "spectra_fp4"

  /** An opened FITS container: the text `information.txt` is made of, in
      the three parts written before each extension access (the banner and
      the primary header; the FP4 shift values and the FP3 banner; the FP3
      shift value), and its table extensions by name. */
  datatype Fits = Fits(general: seq<Line>, fp4Info: seq<Line>, fp3Info: seq<Line>, hdus: map<string, Table>)

  /** The whole text of `information.txt`. */
  function Summary(c: Fits): seq<Line> {
    c.general + c.fp4Info + c.fp3Info
  }

  predicate WellFormedFits(c: Fits) {
    forall key :: key in c.hdus ==> WellFormed(c.hdus[key])
  }

  /** The containers `fits.open` can read, by file name. */
  predicate WellFormedFiles(files: map<string, Fits>) {
    forall n :: n in files ==> WellFormedFits(files[n])
  }

  predicate IsFitsName(x: string) {
    Contains(x, FitsMarker)
  }

  /** `[x for x in listdir('.') if '.fits' in x]`. */
  function FitsNames(listing: seq<string>): seq<string> {
    Filter(IsFitsName, listing)
  }

  /** An entry is processed exactly when `.fits` occurs anywhere in its
      name, as many times as it is listed. */
  lemma FitsSelection(listing: seq<string>, x: string)
    ensures multiset(FitsNames(listing))[x] == if Contains(x, FitsMarker) then multiset(listing)[x] else 0
  {
    FilterMultiset(IsFitsName, listing, x);
  }

  /** Entries are processed in listing order. */
  lemma FitsInListingOrder(a: seq<string>, b: seq<string>)
    ensures FitsNames(a + b) == FitsNames(a) + FitsNames(b)
  {
    FilterAppend(IsFitsName, a, b);
  }

  /** `fits_name.split('table')[1][:-5] + '/'`. */
  function OutputRoot(name: string): (r: Result<string>)
    ensures r.Failure? <==> !Contains(name, RootToken)
    ensures r.Failure? ==> r.error.IndexError?
    ensures r.Success? ==> |r.value| >= 1 && r.value[|r.value| - 1] == '/'
  {
    SplitPieces(name, RootToken);
    var parts := Split(name, RootToken);
    if |parts| < 2 then Failure(IndexError("list index out of range"))
    else Success(DropLast(parts[1], 5) + "/")
  }

  lemma RootTokenFirstCharUnique()
    ensures FirstCharUnique(RootToken)
  {
  }

  /** For a name made of pieces joined by `table`, none containing `table`,
      the root is the second piece without its last five characters. */
  lemma RootOfJoin(parts: seq<string>)
    requires |parts| >= 2
    requires forall k :: 0 <= k < |parts| ==> !Contains(parts[k], RootToken)
    ensures OutputRoot(Join(parts, RootToken)) == Success(DropLast(parts[1], 5) + "/")
  {
    RootTokenFirstCharUnique();
    JoinThenSplit(parts, RootToken);
  }

  /** The naming convention: `<prefix>table<id><5-character extension>`,
      with no other `table` in the name, puts the output under `<id>/`. */
  lemma ConventionalRoot(prefix: string, id: string, ext: string)
    requires !Contains(prefix, RootToken) && !Contains(id + ext, RootToken)
    requires |ext| == 5
    ensures OutputRoot(prefix + RootToken + id + ext) == Success(id + "/")
  {
    assert prefix + RootToken + id + ext == Join([prefix, id + ext], RootToken);
    RootOfJoin([prefix, id + ext]);
    assert DropLast(id + ext, 5) == id;
  }

  /** A segment of five characters or fewer after the first `table` gives
      the root `/`: a name such as `table.fits` sends the output, and the
      preliminary `rmtree`, to the file-system root. */
  lemma ShortSegmentRoot(prefix: string, segment: string)
    requires !Contains(prefix, RootToken) && !Contains(segment, RootToken)
    requires |segment| <= 5
    ensures OutputRoot(prefix + RootToken + segment) == Success("/")
  {
    assert prefix + RootToken + segment == Join([prefix, segment], RootToken);
    RootOfJoin([prefix, segment]);
    assert DropLast(segment, 5) == [];
    assert [] + "/" == "/";
  }

  /** The usual case: `tableX42.fits` is extracted under `X42/`. */
  lemma ExampleRoot()
    ensures OutputRoot("tableX42.fits") == Success("X42/")
  {
    var id, ext := "X42", ".fits";
    AbsentChar(id + ext, RootToken, 1);
    AbsentChar([], RootToken, 1);
    ConventionalRoot([], id, ext);
    assert |[] + RootToken + id + ext| == |"tableX42.fits"|;
    forall k | 0 <= k < |"tableX42.fits"|
      ensures ([] + RootToken + id + ext)[k] == "tableX42.fits"[k]
    {
    }
    assert [] + RootToken + id + ext == "tableX42.fits";
    assert id + "/" == "X42/";
  }

  /** `table..fits` has the root `./`, the working directory itself, and
      `table...fits` the root `../`, its parent: the preliminary `rmtree`
      then removes their contents, the `.fits` inputs included. */
  lemma DotDirRoots()
    ensures OutputRoot("table..fits") == Success("./")
    ensures OutputRoot("table...fits") == Success("../")
  {
    HereRoot();
    ParentRoot();
  }

  lemma HereRoot()
    ensures OutputRoot("table..fits") == Success("./")
  {
    HereName();
    DotRoot(".");
    assert "." + "/" == "./";
  }

  lemma ParentRoot()
    ensures OutputRoot("table...fits") == Success("../")
  {
    ParentName();
    DotRoot("..");
    assert ".." + "/" == "../";
  }

  lemma HereName()
    ensures RootToken + "." + ".fits" == "table..fits"
  {
    var name := RootToken + "." + ".fits";
    forall k | 0 <= k < |name|
      ensures name[k] == "table..fits"[k]
    {
    }
  }

  lemma ParentName()
    ensures RootToken + ".." + ".fits" == "table...fits"
  {
    var name := RootToken + ".." + ".fits";
    forall k | 0 <= k < |name|
      ensures name[k] == "table...fits"[k]
    {
    }
  }

  /** `table<id>.fits`, for an `<id>` made of dots, has the root `<id>/`. */
  lemma DotRoot(id: string)
    requires forall k :: 0 <= k < |id| ==> id[k] == '.'
    ensures OutputRoot(RootToken + id + ".fits") == Success(id + "/")
  {
    var ext := ".fits";
    AbsentChar(id + ext, RootToken, 1);
    AbsentChar([], RootToken, 1);
    ConventionalRoot([], id, ext);
    assert [] + RootToken + id + ext == RootToken + id + ".fits";
  }

  /** `hdul[key].data`, which raises `KeyError` for a missing extension. */
  function Lookup(c: Fits, key: string): (r: Result<Table>)
    ensures r.Success? <==> key in c.hdus
    ensures r.Success? ==> r.value == c.hdus[key]
    ensures r.Failure? ==> r.error == KeyError(key)
  {
    if key in c.hdus then Success(c.hdus[key]) else Failure(KeyError(key))
  }

  /** `extract_information`: the file is created and filled in order; the
      FP4 shift values need `SPECTRA_FP4`, the FP3 one `SPECTRA_FP3`, and a
      missing extension raises `KeyError` with only the text before it in
      the file. */
  function Information(root: string, c: Fits): (r: Outcome)
    ensures |r.ops| == 1 && r.ops[0].WriteFile? && r.ops[0].path == root + InfoFile && r.ops[0].mode == Create
    ensures r.ops[0].lines <= Summary(c)
    ensures r.error.None? <==> "SPECTRA_FP4" in c.hdus && "SPECTRA_FP3" in c.hdus
    ensures r.error.None? ==> r.ops[0].lines == Summary(c)
    ensures "SPECTRA_FP4" !in c.hdus ==> r.error == Some(KeyError("SPECTRA_FP4")) && r.ops[0].lines == c.general
    ensures "SPECTRA_FP4" in c.hdus && "SPECTRA_FP3" !in c.hdus ==>
              r.error == Some(KeyError("SPECTRA_FP3")) && r.ops[0].lines == c.general + c.fp4Info
  {
    if "SPECTRA_FP4" !in c.hdus then
      Outcome([WriteFile(root + InfoFile, Create, c.general)], Some(KeyError("SPECTRA_FP4")))
    else if "SPECTRA_FP3" !in c.hdus then
      Outcome([WriteFile(root + InfoFile, Create, c.general + c.fp4Info)], Some(KeyError("SPECTRA_FP3")))
    else Outcome([WriteFile(root + InfoFile, Create, Summary(c))], None)
  }

  /** The spectra of one focal plane: look up both tables, then extract. */
  function SpectraStep(dir: string, c: Fits, spectra: string, altitudes: string): Outcome
    requires WellFormedFits(c)
  {
    match Lookup(c, spectra)
    case Failure(e) => Outcome([], Some(e))
    case Success(data) =>
      match Lookup(c, altitudes)
      case Failure(e) => Outcome([], Some(e))
      case Success(altitude) => Spectra.Extract(dir, data, altitude)
  }

  /** The profile extensions and the output stems, in the order written. */
  const ProfileTables: seq<(string, string)> := [
    ("THERMAL_PROFILE", "thermal"),
    ("C2H2_PROFILE", "c2h2"),
    ("C2H4_PROFILE", "c2h4"),
    ("C2H6_PROFILE", "c2h6"),
    ("C3H8_PROFILE", "c3h8"),
    ("C3H4_PROFILE", "c3h4"),
    ("C4H2_PROFILE", "c4h2"),
    ("C6H6_PROFILE", "c6h6"),
    ("HCN_PROFILE", "hcn"),
    ("HC3N_PROFILE", "hc3n"),
    ("CO2_PROFILE", "co2")
  ]

  /** `directory_root + directory_input + '/' + stem + '_profile'`. */
  function ProfileName(root: string, stem: string): string {
    root + InputDir + "/" + stem + "_profile"
  }

  /** The profile calls for `tables`, in order: a missing extension raises
      `KeyError`, and the first exception ends the sequence. */
  function ProfilesFrom(root: string, c: Fits, tables: seq<(string, string)>): Outcome
    requires WellFormedFits(c)
  {
    if |tables| == 0 then Outcome([], None)
    else
      var (table, stem) := tables[0];
      match Lookup(c, table)
      case Failure(e) => Outcome([], Some(e))
      case Success(data) => Then(Profiles.Extract(ProfileName(root, stem), data), ProfilesFrom(root, c, tables[1..]))
  }

  /** The profile calls stop at the first missing extension: when the
      tables before `k` exist and their calls raise nothing, and table `k`
      is missing, the calls raise `KeyError` naming it, having issued
      exactly the operations of the tables before it. */
  lemma {:induction false} ProfileMissingStops(root: string, c: Fits, tables: seq<(string, string)>, k: nat)
    requires WellFormedFits(c)
    requires k < |tables|
    requires ProfilesFrom(root, c, tables[..k]).error.None?
    requires tables[k].0 !in c.hdus
    ensures ProfilesFrom(root, c, tables)
              == Outcome(ProfilesFrom(root, c, tables[..k]).ops, Some(KeyError(tables[k].0)))
    decreases k
  {
    if k == 0 {
      assert tables[..0] == [];
    } else {
      var table, stem := tables[0].0, tables[0].1;
      assert tables[..k][0] == tables[0];
      assert tables[..k][1..] == tables[1..][..k - 1];
      assert table in c.hdus;
      var one := Profiles.Extract(ProfileName(root, stem), c.hdus[table]);
      assert ProfilesFrom(root, c, tables[..k]) == Then(one, ProfilesFrom(root, c, tables[1..][..k - 1]));
      assert tables[1..][k - 1] == tables[k];
      ProfileMissingStops(root, c, tables[1..], k - 1);
    }
  }

  /** The body of the loop in `main` for one entry. */
  function PerFile(name: string, files: map<string, Fits>): Outcome
    requires WellFormedFiles(files)
  {
    match OutputRoot(name)
    case Failure(e) => Outcome([], Some(e))
    case Success(root) =>
      var prepare := Outcome([ResetDir(root), MakeDir(root + InputDir)], None);
      if name !in files then Then(prepare, Outcome([], Some(OsError(name))))
      else
        Then(prepare, ContainerSteps(root, files[name]))
  }

  /** The `with fits.open(...)` block: the information file, the FP3 and
      FP4 spectra, then the profiles. */
  function ContainerSteps(root: string, c: Fits): Outcome
    requires WellFormedFits(c)
  {
    Then(Information(root, c),
    Then(SpectraStep(root + Fp3Dir, c, "SPECTRA_FP3", "ALTITUDE_FP3"),
    Then(SpectraStep(root + Fp4Dir, c, "SPECTRA_FP4", "ALTITUDE_FP4"),
         ProfilesFrom(root, c, ProfileTables))))
  }

  /** The extensions are read in source order: a container holding both
      spectrum extensions but not `ALTITUDE_FP3` raises `KeyError` naming
      it right after `information.txt` is complete, so `spectra_fp3` is
      never made. */
  lemma Fp3AltitudeMissing(name: string, files: map<string, Fits>)
    requires WellFormedFiles(files)
    requires Contains(name, RootToken) && name in files
    requires "SPECTRA_FP4" in files[name].hdus && "SPECTRA_FP3" in files[name].hdus
    requires "ALTITUDE_FP3" !in files[name].hdus
    ensures var root := OutputRoot(name).value;
      PerFile(name, files) ==
        Outcome([ResetDir(root), MakeDir(root + InputDir), WriteFile(root + InfoFile, Create, Summary(files[name]))],
                Some(KeyError("ALTITUDE_FP3")))
  {
    var c, root := files[name], OutputRoot(name).value;
    var info := Information(root, c);
    assert SpectraStep(root + Fp3Dir, c, "SPECTRA_FP3", "ALTITUDE_FP3") == Outcome([], Some(KeyError("ALTITUDE_FP3")));
    assert ContainerSteps(root, c) == Outcome(info.ops, Some(KeyError("ALTITUDE_FP3")));
  }

  /** A container missing only `ALTITUDE_FP4` among the spectrum
      extensions raises `KeyError` naming it after the FP3 spectra are
      written, so `spectra_fp4` is never made. */
  lemma Fp4AltitudeMissing(name: string, files: map<string, Fits>)
    requires WellFormedFiles(files)
    requires Contains(name, RootToken) && name in files
    requires "SPECTRA_FP4" in files[name].hdus && "SPECTRA_FP3" in files[name].hdus
    requires "ALTITUDE_FP4" !in files[name].hdus
    requires SpectraStep(OutputRoot(name).value + Fp3Dir, files[name], "SPECTRA_FP3", "ALTITUDE_FP3").error.None?
    ensures var root := OutputRoot(name).value;
      PerFile(name, files) ==
        Outcome([ResetDir(root), MakeDir(root + InputDir), WriteFile(root + InfoFile, Create, Summary(files[name]))]
                + SpectraStep(root + Fp3Dir, files[name], "SPECTRA_FP3", "ALTITUDE_FP3").ops,
                Some(KeyError("ALTITUDE_FP4")))
  {
    var c, root := files[name], OutputRoot(name).value;
    var fp3 := SpectraStep(root + Fp3Dir, c, "SPECTRA_FP3", "ALTITUDE_FP3");
    var info := WriteFile(root + InfoFile, Create, Summary(c));
    Fp4AltitudeContainer(root, c);
    PerFileOpened(name, files);
    assert [ResetDir(root), MakeDir(root + InputDir)] + ([info] + fp3.ops)
        == [ResetDir(root), MakeDir(root + InputDir), info] + fp3.ops;
  }

  /** An entry whose file opens prepares the root and then runs the body
      of the `with` block. */
  lemma PerFileOpened(name: string, files: map<string, Fits>)
    requires WellFormedFiles(files)
    requires Contains(name, RootToken) && name in files
    ensures var root := OutputRoot(name).value;
      PerFile(name, files)
        == Then(Outcome([ResetDir(root), MakeDir(root + InputDir)], None), ContainerSteps(root, files[name]))
  {
  }

  lemma Fp4AltitudeContainer(root: string, c: Fits)
    requires WellFormedFits(c)
    requires "SPECTRA_FP4" in c.hdus && "SPECTRA_FP3" in c.hdus && "ALTITUDE_FP4" !in c.hdus
    requires SpectraStep(root + Fp3Dir, c, "SPECTRA_FP3", "ALTITUDE_FP3").error.None?
    ensures ContainerSteps(root, c)
              == Outcome([WriteFile(root + InfoFile, Create, Summary(c))]
                         + SpectraStep(root + Fp3Dir, c, "SPECTRA_FP3", "ALTITUDE_FP3").ops,
                         Some(KeyError("ALTITUDE_FP4")))
  {
    assert SpectraStep(root + Fp4Dir, c, "SPECTRA_FP4", "ALTITUDE_FP4") == Outcome([], Some(KeyError("ALTITUDE_FP4")));
  }

  /** How the body of the loop fails: a name without `table` raises
      `IndexError` before anything happens; a file that cannot be opened
      fails after the two directories are made; a container without one of
      the spectrum extensions fails right after `information.txt` is
      written, holding only the text before the missing extension's
      values. */
  lemma PerFileFailures(name: string, files: map<string, Fits>)
    requires WellFormedFiles(files)
    ensures !Contains(name, RootToken) ==>
      PerFile(name, files).ops == [] && PerFile(name, files).error.Some? && PerFile(name, files).error.value.IndexError?
    ensures Contains(name, RootToken) && name !in files ==>
      var root := OutputRoot(name).value;
      PerFile(name, files) == Outcome([ResetDir(root), MakeDir(root + InputDir)], Some(OsError(name)))
    ensures Contains(name, RootToken) && name in files && "SPECTRA_FP4" !in files[name].hdus ==>
      var root := OutputRoot(name).value;
      PerFile(name, files) ==
        Outcome([ResetDir(root), MakeDir(root + InputDir), WriteFile(root + InfoFile, Create, files[name].general)],
                Some(KeyError("SPECTRA_FP4")))
    ensures Contains(name, RootToken) && name in files && "SPECTRA_FP4" in files[name].hdus
            && "SPECTRA_FP3" !in files[name].hdus ==>
      var root := OutputRoot(name).value;
      PerFile(name, files) ==
        Outcome([ResetDir(root), MakeDir(root + InputDir),
                 WriteFile(root + InfoFile, Create, files[name].general + files[name].fp4Info)],
                Some(KeyError("SPECTRA_FP3")))
  {
  }

  /** The loop of `main`: one entry after the other; any exception ends the
      whole run. */
  function RunAll(names: seq<string>, files: map<string, Fits>): Outcome
    requires WellFormedFiles(files)
  {
    if |names| == 0 then Outcome([], None)
    else Then(PerFile(names[0], files), RunAll(names[1..], files))
  }

  /** `main`, given the directory listing and the readable containers. */
  function Main(listing: seq<string>, files: map<string, Fits>): Outcome
    requires WellFormedFiles(files)
  {
    var names := FitsNames(listing);
    var warning := if |names| == 0 then Outcome([Message(NoFitsWarning)], None) else Outcome([], None);
    Then(warning, RunAll(names, files))
  }

  /** With no qualifying entry the run prints the warning and does nothing
      else; otherwise it prints nothing and goes straight to the loop. */
  lemma WarningOnlyWithoutFits(listing: seq<string>, files: map<string, Fits>)
    requires WellFormedFiles(files)
    ensures FitsNames(listing) == [] ==> Main(listing, files) == Outcome([Message(NoFitsWarning)], None)
    ensures FitsNames(listing) != [] ==> Main(listing, files) == RunAll(FitsNames(listing), files)
  {
  }

  /** The warning does not stop the run, and there is nothing to run: the
      file tree is left as it was. */
  lemma NoFitsLeavesTreeAlone(fs: FileSystem.Fs, listing: seq<string>, files: map<string, Fits>)
    requires WellFormedFiles(files)
    requires forall k :: 0 <= k < |listing| ==> !Contains(listing[k], FitsMarker)
    ensures FileSystem.Run(fs, Main(listing, files)) == FileSystem.State(fs, None)
  {
    FilterNone(IsFitsName, listing);
    WarningOnlyWithoutFits(listing, files);
    assert FileSystem.Apply(fs, Message(NoFitsWarning)) == Success(fs);
    assert FileSystem.Exec(fs, [Message(NoFitsWarning)]) == FileSystem.Exec(fs, []);
  }

  /** An entry without `.fits` in its name has no effect on the run. */
  lemma NonFitsEntryIgnored(a: seq<string>, x: string, b: seq<string>, files: map<string, Fits>)
    requires WellFormedFiles(files)
    requires !Contains(x, FitsMarker)
    ensures Main(a + [x] + b, files) == Main(a + b, files)
  {
    assert FitsNames(a + [x] + b) == FitsNames(a + b) by {
      FitsInListingOrder(a + [x], b);
      FitsInListingOrder(a, [x]);
      FitsInListingOrder(a, b);
    }
  }

  /** The loop processes the entries one after the other: running a
      concatenation is running the first part, then, if it raised nothing,
      the second. */
  lemma {:induction false} RunAllSequential(a: seq<string>, b: seq<string>, files: map<string, Fits>)
    requires WellFormedFiles(files)
    ensures RunAll(a + b, files) == Then(RunAll(a, files), RunAll(b, files))
  {
    if |a| == 0 {
      assert a + b == b;
      assert [] + RunAll(b, files).ops == RunAll(b, files).ops;
    } else {
      assert (a + b)[0] == a[0];
      assert (a + b)[1..] == a[1..] + b;
      RunAllSequential(a[1..], b, files);
      ThenAssociative(PerFile(a[0], files), RunAll(a[1..], files), RunAll(b, files));
    }
  }

  /** A profile table has a row retrieved with a 1-sigma error. */
  predicate HasConfidentRow(t: Table) {
    && Profiles.SigmaColumn in t.names
    && exists k :: 0 <= k < |t.rows| && Profiles.Confident(t.rows[k], FieldIndex(t.names, Profiles.SigmaColumn).value)
  }

  /** Reference list of the profile files written for `tables`:
      `<root>input/<stem>_profile.txt` for each table with a confident row,
      in the order of `tables`. */
  function ProfilePaths(root: string, c: Fits, tables: seq<(string, string)>): seq<string>
    requires WellFormedFits(c)
  {
    if |tables| == 0 then []
    else
      var (table, stem) := tables[0];
      (if table in c.hdus && HasConfidentRow(c.hdus[table]) then [ProfileName(root, stem) + ".txt"] else [])
      + ProfilePaths(root, c, tables[1..])
  }

  lemma {:induction false} ProfilesWritten(root: string, c: Fits, tables: seq<(string, string)>)
    requires WellFormedFits(c)
    requires ProfilesFrom(root, c, tables).error.None?
    ensures WrittenPaths(ProfilesFrom(root, c, tables).ops) == ProfilePaths(root, c, tables)
  {
    if |tables| > 0 {
      var (table, stem) := tables[0];
      var data := c.hdus[table];
      var one := Profiles.Extract(ProfileName(root, stem), data);
      var rest := ProfilesFrom(root, c, tables[1..]);
      assert ProfilesFrom(root, c, tables) == Then(one, rest);
      ProfilesWritten(root, c, tables[1..]);
      WrittenPathsAppend(one.ops, rest.ops);
      if HasConfidentRow(data) {
        assert one.ops == [WriteFile(ProfileName(root, stem) + ".txt", Create, one.ops[0].lines)];
      } else {
        assert one.ops == [];
      }
    }
  }

  /** Reference list of the spectrum files of one focal plane: one per
      spectrum column, named by its truncated altitude. */
  function SpectraPaths(dir: string, c: Fits, spectra: string, altitudes: string): seq<string>
    requires WellFormedFits(c)
  {
    if spectra in c.hdus && altitudes in c.hdus && Spectra.Complete(c.hdus[spectra], c.hdus[altitudes]) then
      var data := c.hdus[spectra];
      var altitude := c.hdus[altitudes];
      var n := if Spectra.SpectrumCount(data) < 0 then 0 else Spectra.SpectrumCount(data);
      seq(n, i requires 0 <= i < n => Spectra.SpePath(dir, Spectra.Altitude(altitude, i)))
    else []
  }

  lemma SpectraStepWritten(dir: string, c: Fits, spectra: string, altitudes: string)
    requires WellFormedFits(c)
    requires SpectraStep(dir, c, spectra, altitudes).error.None?
    ensures spectra in c.hdus && altitudes in c.hdus
    ensures Spectra.Complete(c.hdus[spectra], c.hdus[altitudes])
    ensures WrittenPaths(SpectraStep(dir, c, spectra, altitudes).ops) == SpectraPaths(dir, c, spectra, altitudes)
  {
    Spectra.SpectraWrittenPaths(dir, c.hdus[spectra], c.hdus[altitudes]);
  }

  /** For one entry that runs to the end: the tree is reset and `input/`
      created first; then `information.txt` is written, then the FP3
      spectra, then the FP4 spectra, then the profiles in their fixed order. */
  lemma PerFileWriteOrder(name: string, files: map<string, Fits>, root: string)
    requires WellFormedFiles(files)
    requires OutputRoot(name) == Success(root)
    requires PerFile(name, files).error.None?
    ensures name in files
    ensures PerFile(name, files).ops[..2] == [ResetDir(root), MakeDir(root + InputDir)]
    ensures WrittenPaths(PerFile(name, files).ops) ==
              [root + InfoFile]
              + SpectraPaths(root + Fp3Dir, files[name], "SPECTRA_FP3", "ALTITUDE_FP3")
              + SpectraPaths(root + Fp4Dir, files[name], "SPECTRA_FP4", "ALTITUDE_FP4")
              + ProfilePaths(root, files[name], ProfileTables)
  {
    var c := files[name];
    var prepare := [ResetDir(root), MakeDir(root + InputDir)];
    var ext := ContainerSteps(root, c);
    assert PerFile(name, files).ops == prepare + ext.ops;
    ContainerWrites(root, c);
    WrittenPathsAppend(prepare, ext.ops);
    assert WrittenPaths(prepare) == [];
  }

  lemma ContainerWrites(root: string, c: Fits)
    requires WellFormedFits(c)
    requires ContainerSteps(root, c).error.None?
    ensures WrittenPaths(ContainerSteps(root, c).ops) ==
              [root + InfoFile]
              + SpectraPaths(root + Fp3Dir, c, "SPECTRA_FP3", "ALTITUDE_FP3")
              + SpectraPaths(root + Fp4Dir, c, "SPECTRA_FP4", "ALTITUDE_FP4")
              + ProfilePaths(root, c, ProfileTables)
  {
    ContainerStepsSplit(root, c);
    ContainerWrittenSplit(root, c);
    assert WrittenPaths(Information(root, c).ops) == [root + InfoFile];
    SpectraStepWritten(root + Fp3Dir, c, "SPECTRA_FP3", "ALTITUDE_FP3");
    SpectraStepWritten(root + Fp4Dir, c, "SPECTRA_FP4", "ALTITUDE_FP4");
    ProfilesWritten(root, c, ProfileTables);
  }

  lemma ContainerWrittenSplit(root: string, c: Fits)
    requires WellFormedFits(c)
    requires ContainerSteps(root, c).error.None?
    ensures WrittenPaths(ContainerSteps(root, c).ops) ==
              WrittenPaths(Information(root, c).ops)
              + WrittenPaths(SpectraStep(root + Fp3Dir, c, "SPECTRA_FP3", "ALTITUDE_FP3").ops)
              + WrittenPaths(SpectraStep(root + Fp4Dir, c, "SPECTRA_FP4", "ALTITUDE_FP4").ops)
              + WrittenPaths(ProfilesFrom(root, c, ProfileTables).ops)
  {
    ContainerStepsSplit(root, c);
    WrittenPathsOfFour(Information(root, c).ops,
                       SpectraStep(root + Fp3Dir, c, "SPECTRA_FP3", "ALTITUDE_FP3").ops,
                       SpectraStep(root + Fp4Dir, c, "SPECTRA_FP4", "ALTITUDE_FP4").ops,
                       ProfilesFrom(root, c, ProfileTables).ops);
  }

  lemma WrittenPathsOfFour(a: seq<Op>, b: seq<Op>, c: seq<Op>, d: seq<Op>)
    ensures WrittenPaths(a + (b + (c + d))) == WrittenPaths(a) + WrittenPaths(b) + WrittenPaths(c) + WrittenPaths(d)
  {
    WrittenPathsAppend(c, d);
    WrittenPathsAppend(b, c + d);
    WrittenPathsAppend(a, b + (c + d));
  }

  lemma ContainerStepsSplit(root: string, c: Fits)
    requires WellFormedFits(c)
    requires ContainerSteps(root, c).error.None?
    ensures Information(root, c).error.None?
    ensures SpectraStep(root + Fp3Dir, c, "SPECTRA_FP3", "ALTITUDE_FP3").error.None?
    ensures SpectraStep(root + Fp4Dir, c, "SPECTRA_FP4", "ALTITUDE_FP4").error.None?
    ensures ProfilesFrom(root, c, ProfileTables).error.None?
    ensures ContainerSteps(root, c).ops ==
              Information(root, c).ops
              + (SpectraStep(root + Fp3Dir, c, "SPECTRA_FP3", "ALTITUDE_FP3").ops
              + (SpectraStep(root + Fp4Dir, c, "SPECTRA_FP4", "ALTITUDE_FP4").ops
              + ProfilesFrom(root, c, ProfileTables).ops))
  {
  }

  /** `d` can be created and filled: neither it nor anything inside it
      exists yet. */
  predicate FreshFor(fs: FileSystem.Fs, d: string) {
    && d !in fs.dirs && d !in fs.files
    && forall p :: p in fs.files ==> !IsPrefix(d + "/", p)
  }

  /** Under `root` there is nothing but the directories `root` and
      `root/input` and, once written, the information file. */
  predicate OnlyPrepared(fs: FileSystem.Fs, root: string) {
    && (forall x :: x in fs.dirs && IsPrefix(root, x) ==> x == root || x == root + InputDir)
    && (forall p :: p in fs.files && IsPrefix(root, p) ==> p == root + InfoFile)
  }

  /** Paths outside `root` are as they were. */
  ghost predicate SameOutside(a: FileSystem.Fs, b: FileSystem.Fs, root: string) {
    forall q :: !IsPrefix(root, q) ==>
      && (q in a.dirs <==> q in b.dirs)
      && (q in a.files <==> q in b.files)
      && FileSystem.Prior(a, q) == FileSystem.Prior(b, q)
  }

  lemma PrepareRun(fs: FileSystem.Fs, root: string)
    requires root !in fs.files
    requires root in fs.dirs || FileSystem.NothingUnder(fs, root)
    ensures FileSystem.Exec(fs, [ResetDir(root), MakeDir(root + InputDir)]).error.None?
    ensures OnlyPrepared(FileSystem.Exec(fs, [ResetDir(root), MakeDir(root + InputDir)]).fs, root)
    ensures SameOutside(FileSystem.Exec(fs, [ResetDir(root), MakeDir(root + InputDir)]).fs, fs, root)
  {
    FileSystem.ResetDirFresh(fs, root);
    var reset := FileSystem.Exec(fs, [ResetDir(root)]).fs;
    var input := root + InputDir;
    assert IsPrefix(root, input);
    FileSystem.ExecAppend(fs, [ResetDir(root)], [MakeDir(input)]);
    assert [ResetDir(root)] + [MakeDir(input)] == [ResetDir(root), MakeDir(input)];
    var next := reset.(dirs := reset.dirs + {input});
    assert FileSystem.Apply(reset, MakeDir(input)) == Success(next);
    assert FileSystem.Exec(reset, [MakeDir(input)]) == FileSystem.Exec(next, []);
  }

  /** The directories the spectra go to are fresh once the tree holds
      only what the preparation and the information file put there. */
  lemma SpectraDirsFresh(fs: FileSystem.Fs, root: string)
    requires OnlyPrepared(fs, root)
    ensures FreshFor(fs, root + Fp3Dir) && FreshFor(fs, root + Fp4Dir)
  {
    forall d, p | d in {Fp3Dir, Fp4Dir} && p in fs.files
      ensures !IsPrefix(root + d + "/", p)
    {
      if IsPrefix(root + d + "/", p) {
        PrefixTransitive(root, root + d + "/", p);
        IncompatiblePrefixes(root + d + "/", root + InfoFile, p, |root|);
      }
    }
    forall d | d in {Fp3Dir, Fp4Dir}
      ensures root + d !in fs.dirs && root + d !in fs.files
    {
      assert IsPrefix(root, root + d);
      IncompatiblePrefixes(root + d, root + InfoFile, root + d, |root|);
      IncompatiblePrefixes(root + d, root + InputDir, root + d, |root|);
    }
  }

  lemma InfoRun(fs: FileSystem.Fs, root: string, c: Fits)
    requires OnlyPrepared(fs, root)
    requires Information(root, c).error.None?
    ensures FileSystem.Exec(fs, Information(root, c).ops).error.None?
    ensures OnlyPrepared(FileSystem.Exec(fs, Information(root, c).ops).fs, root)
    ensures SameOutside(FileSystem.Exec(fs, Information(root, c).ops).fs, fs, root)
    ensures FileSystem.Exec(fs, Information(root, c).ops).fs.dirs == fs.dirs
    ensures FileSystem.Prior(FileSystem.Exec(fs, Information(root, c).ops).fs, root + InfoFile) == Summary(c)
  {
  }

  /** The content a spectrum file of one focal plane is left with: the
      blocks of every column of that truncated altitude, in column order. */
  function SpeContent(c: Fits, spectra: string, altitudes: string, a: int): seq<Line>
    requires WellFormedFits(c)
  {
    if spectra in c.hdus && altitudes in c.hdus && Spectra.Complete(c.hdus[spectra], c.hdus[altitudes])
    then Spectra.BlocksAt(c.hdus[spectra], c.hdus[altitudes], a, 0)
    else []
  }

  lemma SpectraRun(fs: FileSystem.Fs, dir: string, c: Fits, spectra: string, altitudes: string, a: int)
    requires WellFormedFits(c)
    requires SpectraStep(dir, c, spectra, altitudes).error.None?
    requires FreshFor(fs, dir)
    ensures FileSystem.Exec(fs, SpectraStep(dir, c, spectra, altitudes).ops).error.None?
    ensures FileSystem.Prior(FileSystem.Exec(fs, SpectraStep(dir, c, spectra, altitudes).ops).fs, Spectra.SpePath(dir, a))
              == SpeContent(c, spectra, altitudes, a)
  {
    Spectra.SpeFileContent(fs, dir, c.hdus[spectra], c.hdus[altitudes], a);
  }

  lemma SpectraFrame(fs: FileSystem.Fs, dir: string, c: Fits, spectra: string, altitudes: string, q: string)
    requires WellFormedFits(c)
    requires q != dir && !IsPrefix(dir + "/", q)
    ensures q in FileSystem.Exec(fs, SpectraStep(dir, c, spectra, altitudes).ops).fs.dirs <==> q in fs.dirs
    ensures q in FileSystem.Exec(fs, SpectraStep(dir, c, spectra, altitudes).ops).fs.files <==> q in fs.files
    ensures FileSystem.Prior(FileSystem.Exec(fs, SpectraStep(dir, c, spectra, altitudes).ops).fs, q) == FileSystem.Prior(fs, q)
  {
    var ops := SpectraStep(dir, c, spectra, altitudes).ops;
    if spectra in c.hdus && altitudes in c.hdus {
      Spectra.ExtractTouchesOnly(dir, c.hdus[spectra], c.hdus[altitudes], q);
    }
    FileSystem.ExecFrame(fs, ops, q);
  }

  /** Operations that only write, and only inside `root/input/`. */
  predicate InputWrites(root: string, ops: seq<Op>) {
    forall j :: 0 <= j < |ops| ==> ops[j].WriteFile? && IsPrefix(root + InputDir + "/", ops[j].path)
  }

  /** The profile calls only write, and only inside `root/input/`. */
  lemma {:induction false} ProfilesFromWrites(root: string, c: Fits, tables: seq<(string, string)>)
    requires WellFormedFits(c)
    requires ProfilesFrom(root, c, tables).error.None?
    ensures InputWrites(root, ProfilesFrom(root, c, tables).ops)
  {
    if |tables| > 0 {
      var table, stem := tables[0].0, tables[0].1;
      var one := Profiles.Extract(ProfileName(root, stem), c.hdus[table]).ops;
      var rest := ProfilesFrom(root, c, tables[1..]).ops;
      assert ProfilesFrom(root, c, tables).ops == one + rest;
      ProfilesFromWrites(root, c, tables[1..]);
      ProfileInputWrites(root, stem, c.hdus[table]);
      InputWritesAppend(root, one, rest);
    }
  }

  lemma ProfileInputWrites(root: string, stem: string, data: Table)
    requires WellFormed(data)
    requires Profiles.Extract(ProfileName(root, stem), data).error.None?
    ensures InputWrites(root, Profiles.Extract(ProfileName(root, stem), data).ops)
  {
  }

  lemma InputWritesAppend(root: string, a: seq<Op>, b: seq<Op>)
    requires InputWrites(root, a) && InputWrites(root, b)
    ensures InputWrites(root, a + b)
  {
  }

  /** Running one entry that raises nothing, from any tree where no regular
      file is named like the root and a root that is not a directory has
      nothing under it: no `makedirs` fails; the information file holds its
      whole text; every `.spe` file holds exactly the blocks of the columns
      of its truncated altitude, in column order; every profile file exists
      exactly when its table has a confident row, and then holds that
      table's projected confident rows; under the root a file exists
      exactly when the entry wrote it, so nothing of an earlier run
      survives; and no path outside the root, compared as a string,
      changes. */
  lemma PerFileRun(fs: FileSystem.Fs, name: string, files: map<string, Fits>, root: string, a: int)
    requires WellFormedFiles(files)
    requires OutputRoot(name) == Success(root)
    requires PerFile(name, files).error.None?
    requires root !in fs.files
    requires root in fs.dirs || FileSystem.NothingUnder(fs, root)
    ensures FileSystem.Run(fs, PerFile(name, files)).error.None?
    ensures name in files
    ensures FileSystem.Prior(FileSystem.Run(fs, PerFile(name, files)).fs, root + InfoFile) == Summary(files[name])
    ensures FileSystem.Prior(FileSystem.Run(fs, PerFile(name, files)).fs, Spectra.SpePath(root + Fp3Dir, a))
              == SpeContent(files[name], "SPECTRA_FP3", "ALTITUDE_FP3", a)
    ensures FileSystem.Prior(FileSystem.Run(fs, PerFile(name, files)).fs, Spectra.SpePath(root + Fp4Dir, a))
              == SpeContent(files[name], "SPECTRA_FP4", "ALTITUDE_FP4", a)
    ensures forall k :: 0 <= k < |ProfileTables| ==>
              && ProfileTables[k].0 in files[name].hdus
              && ProfileFileHolds(FileSystem.Run(fs, PerFile(name, files)).fs, root,
                                  files[name].hdus[ProfileTables[k].0], ProfileTables[k].1)
    ensures forall p :: IsPrefix(root, p) ==>
              (p in FileSystem.Run(fs, PerFile(name, files)).fs.files <==> p in WrittenPaths(PerFile(name, files).ops))
    ensures SameOutside(FileSystem.Run(fs, PerFile(name, files)).fs, fs, root)
  {
    PerFileContents(fs, name, files, root, a);
    PerFileFiles(fs, name, files, root);
  }

  /** The contents part of `PerFileRun`. */
  lemma PerFileContents(fs: FileSystem.Fs, name: string, files: map<string, Fits>, root: string, a: int)
    requires WellFormedFiles(files)
    requires OutputRoot(name) == Success(root)
    requires PerFile(name, files).error.None?
    requires root !in fs.files
    requires root in fs.dirs || FileSystem.NothingUnder(fs, root)
    ensures FileSystem.Run(fs, PerFile(name, files)).error.None?
    ensures name in files
    ensures FileSystem.Prior(FileSystem.Run(fs, PerFile(name, files)).fs, root + InfoFile) == Summary(files[name])
    ensures FileSystem.Prior(FileSystem.Run(fs, PerFile(name, files)).fs, Spectra.SpePath(root + Fp3Dir, a))
              == SpeContent(files[name], "SPECTRA_FP3", "ALTITUDE_FP3", a)
    ensures FileSystem.Prior(FileSystem.Run(fs, PerFile(name, files)).fs, Spectra.SpePath(root + Fp4Dir, a))
              == SpeContent(files[name], "SPECTRA_FP4", "ALTITUDE_FP4", a)
    ensures forall k :: 0 <= k < |ProfileTables| ==>
              && ProfileTables[k].0 in files[name].hdus
              && ProfileFileHolds(FileSystem.Run(fs, PerFile(name, files)).fs, root,
                                  files[name].hdus[ProfileTables[k].0], ProfileTables[k].1)
    ensures SameOutside(FileSystem.Run(fs, PerFile(name, files)).fs, fs, root)
  {
    var c := files[name];
    var dir3, dir4 := root + Fp3Dir, root + Fp4Dir;
    var prepare := [ResetDir(root), MakeDir(root + InputDir)];
    var info := Information(root, c).ops;
    var s3 := SpectraStep(dir3, c, "SPECTRA_FP3", "ALTITUDE_FP3").ops;
    var s4 := SpectraStep(dir4, c, "SPECTRA_FP4", "ALTITUDE_FP4").ops;
    var prof := ProfilesFrom(root, c, ProfileTables).ops;
    ContainerStepsSplit(root, c);
    assert PerFile(name, files).ops == prepare + (info + (s3 + (s4 + prof)));

    PrepareRun(fs, root);
    var fs1 := FileSystem.Exec(fs, prepare).fs;
    InfoRun(fs1, root, c);
    var fs2 := FileSystem.Exec(fs1, info).fs;
    SpectraDirsFresh(fs2, root);
    SpectraRun(fs2, dir3, c, "SPECTRA_FP3", "ALTITUDE_FP3", a);
    var fs3 := FileSystem.Exec(fs2, s3).fs;
    Fp4FreshAfterFp3(fs2, root, c);
    SpectraRun(fs3, dir4, c, "SPECTRA_FP4", "ALTITUDE_FP4", a);
    var fs4 := FileSystem.Exec(fs3, s4).fs;
    ProfilesFromWrites(root, c, ProfileTables);
    FileSystem.ExecWritesSucceed(fs4, prof);
    var fs5 := FileSystem.Exec(fs4, prof).fs;

    ExecFour(fs1, info, s3, s4, prof);
    FileSystem.ExecAppend(fs, prepare, info + (s3 + (s4 + prof)));
    assert FileSystem.Run(fs, PerFile(name, files)).fs == fs5;

    InfoKept(fs2, fs3, fs4, root, c, prof);
    Spectra.SpePathUnder(dir3, a);
    Fp3Kept(fs3, fs4, root, c, prof, Spectra.SpePath(dir3, a));
    var p4 := Spectra.SpePath(dir4, a);
    Spectra.SpePathUnder(dir4, a);
    AfterFp4Keeps(fs4, root, prof, p4);
    LaterStepsOutside(fs2, root, c, prof);
    ProfileStemsDistinct();
    ProfilesRunFiles(fs2, root, c, ProfileTables);
  }

  /** The body of the `with` block removes nothing: it writes files and
      makes the two spectrum directories. */
  lemma ContainerNoRemovals(root: string, c: Fits)
    requires WellFormedFits(c)
    requires ContainerSteps(root, c).error.None?
    ensures FileSystem.NoRemovals(ContainerSteps(root, c).ops)
    ensures ContainerSteps(root, c).ops[0] == WriteFile(root + InfoFile, Create, Summary(c))
  {
    ContainerStepsSplit(root, c);
    var info := Information(root, c).ops;
    var s3 := SpectraStep(root + Fp3Dir, c, "SPECTRA_FP3", "ALTITUDE_FP3").ops;
    var s4 := SpectraStep(root + Fp4Dir, c, "SPECTRA_FP4", "ALTITUDE_FP4").ops;
    var prof := ProfilesFrom(root, c, ProfileTables).ops;
    SpectraNoRemovals(root + Fp3Dir, c, "SPECTRA_FP3", "ALTITUDE_FP3");
    SpectraNoRemovals(root + Fp4Dir, c, "SPECTRA_FP4", "ALTITUDE_FP4");
    ProfilesFromWrites(root, c, ProfileTables);
    assert FileSystem.NoRemovals(prof);
    FileSystem.NoRemovalsAppend(s4, prof);
    FileSystem.NoRemovalsAppend(s3, s4 + prof);
    FileSystem.NoRemovalsAppend(info, s3 + (s4 + prof));
  }

  lemma SpectraNoRemovals(dir: string, c: Fits, spectra: string, altitudes: string)
    requires WellFormedFits(c)
    ensures FileSystem.NoRemovals(SpectraStep(dir, c, spectra, altitudes).ops)
  {
  }

  /** Operations that remove nothing and start by writing the information
      file, run without raising from a freshly prepared root, leave under
      the root exactly the files they wrote. */
  lemma ContainerFilesUnderRoot(fs1: FileSystem.Fs, root: string, ops: seq<Op>)
    requires OnlyPrepared(fs1, root)
    requires FileSystem.NoRemovals(ops)
    requires |ops| > 0 && ops[0].WriteFile? && ops[0].path == root + InfoFile
    requires FileSystem.Exec(fs1, ops).error.None?
    ensures forall p :: IsPrefix(root, p) ==>
              (p in FileSystem.Exec(fs1, ops).fs.files <==> p in WrittenPaths(ops))
  {
    assert root + InfoFile in WrittenPaths(ops);
    forall p | IsPrefix(root, p)
      ensures p in FileSystem.Exec(fs1, ops).fs.files <==> p in WrittenPaths(ops)
    {
      FileSystem.ExecFiles(fs1, ops, p);
    }
  }

  /** The files part of `PerFileRun`: under the root, the files after the
      entry are exactly the ones it wrote. */
  lemma PerFileFiles(fs: FileSystem.Fs, name: string, files: map<string, Fits>, root: string)
    requires WellFormedFiles(files)
    requires OutputRoot(name) == Success(root)
    requires PerFile(name, files).error.None?
    requires root !in fs.files
    requires root in fs.dirs || FileSystem.NothingUnder(fs, root)
    ensures forall p :: IsPrefix(root, p) ==>
              (p in FileSystem.Run(fs, PerFile(name, files)).fs.files <==> p in WrittenPaths(PerFile(name, files).ops))
  {
    assert FileSystem.Run(fs, PerFile(name, files)).error.None? by {
      PerFileContents(fs, name, files, root, 0);
    }
    PerFileSplit(name, files, root);
    ContainerNoRemovals(root, files[name]);
    PreparedFiles(fs, root, ContainerSteps(root, files[name]).ops);
  }

  /** Preparing the root and running the body of the `with` block leaves
      under the root exactly the files the body wrote. */
  lemma PreparedFiles(fs: FileSystem.Fs, root: string, container: seq<Op>)
    requires root !in fs.files
    requires root in fs.dirs || FileSystem.NothingUnder(fs, root)
    requires FileSystem.NoRemovals(container)
    requires |container| > 0 && container[0].WriteFile? && container[0].path == root + InfoFile
    requires FileSystem.Exec(fs, [ResetDir(root), MakeDir(root + InputDir)] + container).error.None?
    ensures forall p :: IsPrefix(root, p) ==>
              (p in FileSystem.Exec(fs, [ResetDir(root), MakeDir(root + InputDir)] + container).fs.files <==>
               p in WrittenPaths([ResetDir(root), MakeDir(root + InputDir)] + container))
  {
    var prepare := [ResetDir(root), MakeDir(root + InputDir)];
    PrepareRun(fs, root);
    FileSystem.ExecAppend(fs, prepare, container);
    ContainerFilesUnderRoot(FileSystem.Exec(fs, prepare).fs, root, container);
    WrittenPathsAppend(prepare, container);
    assert WrittenPaths(prepare) == [];
  }

  /** An entry that raises nothing prepares its root and then runs the
      body of the `with` block, which raises nothing either. */
  lemma PerFileSplit(name: string, files: map<string, Fits>, root: string)
    requires WellFormedFiles(files)
    requires OutputRoot(name) == Success(root)
    requires PerFile(name, files).error.None?
    ensures name in files
    ensures ContainerSteps(root, files[name]).error.None?
    ensures PerFile(name, files).ops == [ResetDir(root), MakeDir(root + InputDir)] + ContainerSteps(root, files[name]).ops
  {
  }

  /** Running four op lists one after the other, none failing, is running
      them joined. */
  lemma ExecFour(fs: FileSystem.Fs, a: seq<Op>, b: seq<Op>, c: seq<Op>, d: seq<Op>)
    requires FileSystem.Exec(fs, a).error.None?
    requires FileSystem.Exec(FileSystem.Exec(fs, a).fs, b).error.None?
    requires FileSystem.Exec(FileSystem.Exec(FileSystem.Exec(fs, a).fs, b).fs, c).error.None?
    ensures FileSystem.Exec(fs, a + (b + (c + d)))
              == FileSystem.Exec(FileSystem.Exec(FileSystem.Exec(FileSystem.Exec(fs, a).fs, b).fs, c).fs, d)
  {
    var fs1 := FileSystem.Exec(fs, a).fs;
    var fs2 := FileSystem.Exec(fs1, b).fs;
    FileSystem.ExecAppend(fs2, c, d);
    FileSystem.ExecAppend(fs1, b, c + d);
    FileSystem.ExecAppend(fs, a, b + (c + d));
  }

  /** The tree once the FP3 and then the FP4 spectra are written. */
  function AfterSpectra(fs2: FileSystem.Fs, root: string, c: Fits): FileSystem.Fs
    requires WellFormedFits(c)
  {
    var fs3 := FileSystem.Exec(fs2, SpectraStep(root + Fp3Dir, c, "SPECTRA_FP3", "ALTITUDE_FP3").ops).fs;
    FileSystem.Exec(fs3, SpectraStep(root + Fp4Dir, c, "SPECTRA_FP4", "ALTITUDE_FP4").ops).fs
  }

  /** The spectra and the profiles change nothing outside the root. */
  lemma LaterStepsOutside(fs2: FileSystem.Fs, root: string, c: Fits, prof: seq<Op>)
    requires WellFormedFits(c)
    requires InputWrites(root, prof)
    ensures SameOutside(FileSystem.Exec(AfterSpectra(fs2, root, c), prof).fs, fs2, root)
  {
    var fs3 := FileSystem.Exec(fs2, SpectraStep(root + Fp3Dir, c, "SPECTRA_FP3", "ALTITUDE_FP3").ops).fs;
    var fs4 := FileSystem.Exec(fs3, SpectraStep(root + Fp4Dir, c, "SPECTRA_FP4", "ALTITUDE_FP4").ops).fs;
    forall q | !IsPrefix(root, q)
      ensures && (q in FileSystem.Exec(fs4, prof).fs.dirs <==> q in fs2.dirs)
              && (q in FileSystem.Exec(fs4, prof).fs.files <==> q in fs2.files)
              && FileSystem.Prior(FileSystem.Exec(fs4, prof).fs, q) == FileSystem.Prior(fs2, q)
    {
      OutsideUntouched(root, q);
      SpectraFrame(fs2, root + Fp3Dir, c, "SPECTRA_FP3", "ALTITUDE_FP3", q);
      SpectraFrame(fs3, root + Fp4Dir, c, "SPECTRA_FP4", "ALTITUDE_FP4", q);
      FileSystem.WritesUnder(fs4, prof, root + InputDir + "/", q);
    }
  }

  /** A path outside the root is none of the paths the entry works on. */
  lemma OutsideUntouched(root: string, q: string)
    requires !IsPrefix(root, q)
    ensures q != root + Fp3Dir && !IsPrefix(root + Fp3Dir + "/", q)
    ensures q != root + Fp4Dir && !IsPrefix(root + Fp4Dir + "/", q)
    ensures !IsPrefix(root + InputDir + "/", q)
  {
  }

  /** After the FP3 spectra, the FP4 directory is still fresh. */
  lemma Fp4FreshAfterFp3(fs2: FileSystem.Fs, root: string, c: Fits)
    requires WellFormedFits(c)
    requires FreshFor(fs2, root + Fp4Dir)
    ensures FreshFor(FileSystem.Exec(fs2, SpectraStep(root + Fp3Dir, c, "SPECTRA_FP3", "ALTITUDE_FP3").ops).fs, root + Fp4Dir)
  {
    var dir3, dir4 := root + Fp3Dir, root + Fp4Dir;
    var fs3 := FileSystem.Exec(fs2, SpectraStep(dir3, c, "SPECTRA_FP3", "ALTITUDE_FP3").ops).fs;
    var i := |root| + 10;
    assert dir3[i] == '3' && dir4[i] == '4';
    IncompatiblePrefixes(dir4, dir3, dir4, i);
    SpectraFrame(fs2, dir3, c, "SPECTRA_FP3", "ALTITUDE_FP3", dir4);
    forall p | p in fs3.files
      ensures !IsPrefix(dir4 + "/", p)
    {
      if IsPrefix(dir4 + "/", p) {
        IncompatiblePrefixes(dir4 + "/", dir3 + "/", p, i);
        IncompatiblePrefixes(dir4 + "/", dir3, p, i);
        SpectraFrame(fs2, dir3, c, "SPECTRA_FP3", "ALTITUDE_FP3", p);
      }
    }
  }

  /** A path starting like `u`, which disagrees with `dir` at position `i`,
      is not touched by the spectra written to `dir`. */
  lemma SpectraSkip(fs: FileSystem.Fs, dir: string, c: Fits, spectra: string, altitudes: string,
                    u: string, q: string, i: nat)
    requires WellFormedFits(c)
    requires IsPrefix(u, q) && i < |u| && i < |dir| && u[i] != dir[i]
    ensures FileSystem.Prior(FileSystem.Exec(fs, SpectraStep(dir, c, spectra, altitudes).ops).fs, q) == FileSystem.Prior(fs, q)
  {
    IncompatiblePrefixes(u, dir, q, i);
    IncompatiblePrefixes(u, dir + "/", q, i);
    SpectraFrame(fs, dir, c, spectra, altitudes, q);
  }

  /** A path starting like `u`, which disagrees with `root/input/` at
      position `i`, is not touched by the profiles. */
  lemma ProfilesSkip(fs: FileSystem.Fs, root: string, prof: seq<Op>, u: string, q: string, i: nat)
    requires InputWrites(root, prof)
    requires IsPrefix(u, q) && i < |u| && i < |root + InputDir + "/"| && u[i] != (root + InputDir + "/")[i]
    ensures FileSystem.Prior(FileSystem.Exec(fs, prof).fs, q) == FileSystem.Prior(fs, q)
  {
    IncompatiblePrefixes(u, root + InputDir + "/", q, i);
    FileSystem.WritesUnder(fs, prof, root + InputDir + "/", q);
  }

  /** The information file is not touched by the spectra or the profiles. */
  lemma InfoKept(fs2: FileSystem.Fs, fs3: FileSystem.Fs, fs4: FileSystem.Fs, root: string, c: Fits, prof: seq<Op>)
    requires WellFormedFits(c)
    requires fs3 == FileSystem.Exec(fs2, SpectraStep(root + Fp3Dir, c, "SPECTRA_FP3", "ALTITUDE_FP3").ops).fs
    requires fs4 == FileSystem.Exec(fs3, SpectraStep(root + Fp4Dir, c, "SPECTRA_FP4", "ALTITUDE_FP4").ops).fs
    requires InputWrites(root, prof)
    ensures FileSystem.Prior(FileSystem.Exec(fs4, prof).fs, root + InfoFile)
              == FileSystem.Prior(fs2, root + InfoFile)
  {
    var q := root + InfoFile;
    var n := |root|;
    assert IsPrefix(q, q) && q[n] == 'i' && q[n + 2] == 'f';
    SpectraSkip(fs2, root + Fp3Dir, c, "SPECTRA_FP3", "ALTITUDE_FP3", q, q, n);
    SpectraSkip(fs3, root + Fp4Dir, c, "SPECTRA_FP4", "ALTITUDE_FP4", q, q, n);
    ProfilesSkip(fs4, root, prof, q, q, n + 2);
  }

  /** The FP3 spectrum files are not touched by the FP4 spectra or the
      profiles. */
  lemma Fp3Kept(fs3: FileSystem.Fs, fs4: FileSystem.Fs, root: string, c: Fits, prof: seq<Op>, q: string)
    requires WellFormedFits(c)
    requires fs4 == FileSystem.Exec(fs3, SpectraStep(root + Fp4Dir, c, "SPECTRA_FP4", "ALTITUDE_FP4").ops).fs
    requires InputWrites(root, prof)
    requires IsPrefix(root + Fp3Dir + "/", q)
    ensures FileSystem.Prior(FileSystem.Exec(fs4, prof).fs, q) == FileSystem.Prior(fs3, q)
  {
    var u := root + Fp3Dir + "/";
    var n := |root|;
    assert u[n + 10] == '3' && u[n] == 's';
    SpectraSkip(fs3, root + Fp4Dir, c, "SPECTRA_FP4", "ALTITUDE_FP4", u, q, n + 10);
    ProfilesSkip(fs4, root, prof, u, q, n);
  }

  /** The FP4 spectrum files are not touched by the profiles. */
  lemma AfterFp4Keeps(fs4: FileSystem.Fs, root: string, prof: seq<Op>, q: string)
    requires InputWrites(root, prof)
    requires IsPrefix(root + Fp4Dir + "/", q)
    ensures FileSystem.Prior(FileSystem.Exec(fs4, prof).fs, q) == FileSystem.Prior(fs4, q)
  {
    var u := root + Fp4Dir + "/";
    assert u[|root|] == 's';
    ProfilesSkip(fs4, root, prof, u, q, |root|);
  }

  /** No two tables share an output stem, so no profile file is written
      twice. */
  predicate DistinctStems(tables: seq<(string, string)>) {
    forall i, j :: 0 <= i < j < |tables| ==> tables[i].1 != tables[j].1
  }

  lemma ProfileStemsDistinct()
    ensures DistinctStems(ProfileTables)
  {
  }

  /** Two stems name the same profile file exactly when they are equal. */
  lemma ProfileNameInjective(root: string, a: string, b: string)
    ensures ProfileName(root, a) + ".txt" == ProfileName(root, b) + ".txt" <==> a == b
  {
    if ProfileName(root, a) + ".txt" == ProfileName(root, b) + ".txt" {
      var u := ProfileName(root, a) + ".txt";
      var n := |root| + 6;
      assert u[n..|u| - 12] == a;
      assert (ProfileName(root, b) + ".txt")[n..|u| - 12] == b;
    }
  }

  /** The profile file of a stem no table uses is never written. */
  lemma {:induction false} ProfilePathsOmit(root: string, c: Fits, tables: seq<(string, string)>, stem: string)
    requires WellFormedFits(c)
    requires forall j :: 0 <= j < |tables| ==> tables[j].1 != stem
    ensures ProfileName(root, stem) + ".txt" !in ProfilePaths(root, c, tables)
  {
    if |tables| > 0 {
      ProfileNameInjective(root, tables[0].1, stem);
      ProfilePathsOmit(root, c, tables[1..], stem);
    }
  }

  /** Reference state of one profile file after the run: it exists exactly
      when table `t` has a row retrieved with a 1-sigma error, and then it
      holds fields 1 to 4 of those rows, in the table's order. */
  predicate ProfileFileHolds(fs: FileSystem.Fs, root: string, t: Table, stem: string)
    requires WellFormed(t)
  {
    var p := ProfileName(root, stem) + ".txt";
    && (p in fs.files <==> HasConfidentRow(t))
    && (HasConfidentRow(t) ==>
          && |t.names| >= 5
          && fs.files[p] == Profiles.Lines(Profiles.Kept(t.rows, FieldIndex(t.names, Profiles.SigmaColumn).value)))
  }

  /** The profile file of table `k`, absent before the profile calls, ends
      up as the reference state says, whatever the other calls write. */
  lemma {:induction false} ProfileFileAfter(fs: FileSystem.Fs, root: string, c: Fits, tables: seq<(string, string)>, k: nat)
    requires WellFormedFits(c)
    requires ProfilesFrom(root, c, tables).error.None?
    requires DistinctStems(tables)
    requires k < |tables|
    requires ProfileName(root, tables[k].1) + ".txt" !in fs.files
    ensures tables[k].0 in c.hdus
    ensures ProfileFileHolds(FileSystem.Exec(fs, ProfilesFrom(root, c, tables).ops).fs, root, c.hdus[tables[k].0], tables[k].1)
    decreases |tables|
  {
    var table, stem := tables[0].0, tables[0].1;
    var one := Profiles.Extract(ProfileName(root, stem), c.hdus[table]).ops;
    var rest := ProfilesFrom(root, c, tables[1..]).ops;
    assert ProfilesFrom(root, c, tables).ops == one + rest;
    Profiles.ExtractCreatesOnly(ProfileName(root, stem), c.hdus[table]);
    FileSystem.ExecWritesSucceed(fs, one);
    FileSystem.ExecAppend(fs, one, rest);
    var fs1 := FileSystem.Exec(fs, one).fs;
    if k == 0 {
      FirstProfileFile(fs, root, stem, c.hdus[table]);
      LaterProfilesSkip(fs1, root, c, tables);
    } else {
      OtherProfileSkips(fs, root, stem, c.hdus[table], tables[k].1);
      assert tables[1..][k - 1] == tables[k];
      ProfileFileAfter(fs1, root, c, tables[1..], k - 1);
    }
  }

  /** The calls after the first do not touch the first table's file. */
  lemma LaterProfilesSkip(fs: FileSystem.Fs, root: string, c: Fits, tables: seq<(string, string)>)
    requires WellFormedFits(c)
    requires |tables| > 0 && DistinctStems(tables)
    requires ProfilesFrom(root, c, tables[1..]).error.None?
    ensures var p := ProfileName(root, tables[0].1) + ".txt";
            var after := FileSystem.Exec(fs, ProfilesFrom(root, c, tables[1..]).ops).fs;
            (p in after.files <==> p in fs.files) && FileSystem.Prior(after, p) == FileSystem.Prior(fs, p)
  {
    var stem := tables[0].1;
    var p := ProfileName(root, stem) + ".txt";
    var rest := ProfilesFrom(root, c, tables[1..]).ops;
    forall j | 0 <= j < |tables[1..]|
      ensures tables[1..][j].1 != stem
    {
      assert tables[1..][j] == tables[j + 1];
    }
    ProfilesWritten(root, c, tables[1..]);
    ProfilePathsOmit(root, c, tables[1..], stem);
    ProfilesFromWrites(root, c, tables[1..]);
    forall j | 0 <= j < |rest|
      ensures !FileSystem.Touches(rest[j], p)
    {
      assert rest[j].path in WrittenPaths(rest);
    }
    FileSystem.ExecFrame(fs, rest, p);
  }

  /** A profile call does not touch the file of another stem. */
  lemma OtherProfileSkips(fs: FileSystem.Fs, root: string, stem: string, t: Table, other: string)
    requires WellFormed(t)
    requires Profiles.Extract(ProfileName(root, stem), t).error.None?
    requires stem != other
    ensures var p := ProfileName(root, other) + ".txt";
            var after := FileSystem.Exec(fs, Profiles.Extract(ProfileName(root, stem), t).ops).fs;
            p in after.files <==> p in fs.files
  {
    var p := ProfileName(root, other) + ".txt";
    var one := Profiles.Extract(ProfileName(root, stem), t).ops;
    ProfileNameInjective(root, stem, other);
    Profiles.ExtractCreatesOnly(ProfileName(root, stem), t);
    forall j | 0 <= j < |one|
      ensures !FileSystem.Touches(one[j], p)
    {
    }
    FileSystem.ExecFrame(fs, one, p);
  }

  /** One profile call that raises nothing leaves its file as the
      reference state says, starting from no file. */
  lemma FirstProfileFile(fs: FileSystem.Fs, root: string, stem: string, t: Table)
    requires WellFormed(t)
    requires Profiles.Extract(ProfileName(root, stem), t).error.None?
    requires ProfileName(root, stem) + ".txt" !in fs.files
    ensures ProfileFileHolds(FileSystem.Exec(fs, Profiles.Extract(ProfileName(root, stem), t).ops).fs, root, t, stem)
  {
    var one := Profiles.Extract(ProfileName(root, stem), t);
    var p := ProfileName(root, stem) + ".txt";
    if HasConfidentRow(t) {
      var lines := Profiles.Lines(Profiles.Kept(t.rows, FieldIndex(t.names, Profiles.SigmaColumn).value));
      assert one.ops == [WriteFile(p, Create, lines)];
      var next := fs.(files := fs.files[p := lines]);
      assert FileSystem.Apply(fs, one.ops[0]) == Success(next);
      assert FileSystem.Exec(fs, one.ops) == FileSystem.Exec(next, []);
    } else {
      assert one.ops == [];
    }
  }

  /** No profile file exists once the spectra are written: the tree held
      nothing under the root but the information file before them, and the
      spectra stay in their own directories. */
  lemma ProfileAbsentBefore(fs2: FileSystem.Fs, root: string, c: Fits, stem: string)
    requires WellFormedFits(c)
    requires OnlyPrepared(fs2, root)
    ensures ProfileName(root, stem) + ".txt" !in AfterSpectra(fs2, root, c).files
  {
    var p := ProfileName(root, stem) + ".txt";
    var u := root + InputDir + "/";
    var n := |root|;
    assert p == u + (stem + "_profile.txt");
    assert IsPrefix(root, p) && IsPrefix(u, p);
    assert u[n] == 'i' && u[n + 2] == 'p';
    IncompatiblePrefixes(u, root + InfoFile, p, n + 2);
    var fs3 := FileSystem.Exec(fs2, SpectraStep(root + Fp3Dir, c, "SPECTRA_FP3", "ALTITUDE_FP3").ops).fs;
    IncompatiblePrefixes(u, root + Fp3Dir, p, n);
    IncompatiblePrefixes(u, root + Fp3Dir + "/", p, n);
    SpectraFrame(fs2, root + Fp3Dir, c, "SPECTRA_FP3", "ALTITUDE_FP3", p);
    IncompatiblePrefixes(u, root + Fp4Dir, p, n);
    IncompatiblePrefixes(u, root + Fp4Dir + "/", p, n);
    SpectraFrame(fs3, root + Fp4Dir, c, "SPECTRA_FP4", "ALTITUDE_FP4", p);
  }

  /** After the whole entry, every profile file is as the reference state
      says. */
  lemma ProfilesRunFiles(fs2: FileSystem.Fs, root: string, c: Fits, tables: seq<(string, string)>)
    requires WellFormedFits(c)
    requires OnlyPrepared(fs2, root)
    requires DistinctStems(tables)
    requires ProfilesFrom(root, c, tables).error.None?
    ensures forall k :: 0 <= k < |tables| ==>
              && tables[k].0 in c.hdus
              && ProfileFileHolds(FileSystem.Exec(AfterSpectra(fs2, root, c), ProfilesFrom(root, c, tables).ops).fs,
                                  root, c.hdus[tables[k].0], tables[k].1)
  {
    var fs4 := AfterSpectra(fs2, root, c);
    forall k | 0 <= k < |tables|
      ensures && tables[k].0 in c.hdus
              && ProfileFileHolds(FileSystem.Exec(fs4, ProfilesFrom(root, c, tables).ops).fs,
                                  root, c.hdus[tables[k].0], tables[k].1)
    {
      ProfileAbsentBefore(fs2, root, c, tables[k].1);
      ProfileFileAfter(fs4, root, c, tables, k);
    }
  }
}
=== FILE: filesystem.dfy ===
/** The file tree the plan acts on, and what executing a plan does to it. */
module FileSystem {
  import opened Base
  import opened Strings
  import opened Plan

  /** Directories and files by path. Paths are compared as written
      (`X42/` and `X42/input` are different strings); no normalisation. */
  datatype Fs = Fs(dirs: set<string>, files: map<string, seq<Line>>)

  /** The state reached and the exception that stopped execution, if any. */
  datatype State = State(fs: Fs, error: Option<Error>)

  /** The current content of `p`, empty when the file does not exist
      (what an append starts from). */
  function Prior(fs: Fs, p: string): seq<Line> {
    if p in fs.files then fs.files[p] else []
  }

  /** `rmtree(d)` when `d` is a directory: everything whose path starts
      with `d` goes. */
  function RemoveTree(fs: Fs, d: string): (r: Fs)
    ensures forall x :: x in r.dirs <==> x in fs.dirs && !IsPrefix(d, x)
    ensures forall p :: p in r.files <==> p in fs.files && !IsPrefix(d, p)
    ensures forall p :: p in r.files ==> r.files[p] == fs.files[p]
  {
    Fs(set x | x in fs.dirs && !IsPrefix(d, x),
       map p | p in fs.files && !IsPrefix(d, p) :: fs.files[p])
  }

  function Apply(fs: Fs, op: Op): Result<Fs> {
    match op
    case Message(_) => Success(fs)
    case ResetDir(d) =>
      var cleared := if d in fs.dirs then RemoveTree(fs, d) else fs;
      if d in cleared.dirs || d in cleared.files then Failure(FileExistsError(d))
      else Success(cleared.(dirs := cleared.dirs + {d}))
    case MakeDir(d) =>
      if d in fs.dirs || d in fs.files then Failure(FileExistsError(d))
      else Success(fs.(dirs := fs.dirs + {d}))
    case WriteFile(p, Append, ls) => Success(fs.(files := fs.files[p := Prior(fs, p) + ls]))
    case WriteFile(p, Create, ls) => Success(fs.(files := fs.files[p := ls]))
  }

  /** Executes the operations in order, stopping at the first failure. */
  function Exec(fs: Fs, ops: seq<Op>): State
    decreases |ops|
  {
    if |ops| == 0 then State(fs, None)
    else match Apply(fs, ops[0])
      case Failure(e) => State(fs, Some(e))
      case Success(next) => Exec(next, ops[1..])
  }

  /** Executes a planned run: the file-system failure if one happens first,
      otherwise the exception the run itself raised. */
  function Run(fs: Fs, o: Outcome): State {
    var st := Exec(fs, o.ops);
    if st.error.Some? then st else State(st.fs, o.error)
  }

  /** Everything appended to `p`, in order. */
  function AppendedTo(ops: seq<Op>, p: string): seq<Line> {
    if |ops| == 0 then []
    else if ops[0].WriteFile? && ops[0].path == p then ops[0].lines + AppendedTo(ops[1..], p)
    else AppendedTo(ops[1..], p)
  }

  predicate AllAppends(ops: seq<Op>) {
    forall k :: 0 <= k < |ops| ==> ops[k].WriteFile? && ops[k].mode == Append
  }

  /** A run of appends never fails, creates exactly the files it names and
      leaves each file holding its earlier content followed by everything
      appended to it, in order. */
  lemma ExecAppends(fs: Fs, ops: seq<Op>)
    requires AllAppends(ops)
    ensures Exec(fs, ops).error.None?
    ensures Exec(fs, ops).fs.dirs == fs.dirs
    ensures forall p :: p in Exec(fs, ops).fs.files <==> p in fs.files || p in WrittenPaths(ops)
    ensures forall p :: Prior(Exec(fs, ops).fs, p) == Prior(fs, p) + AppendedTo(ops, p)
  {
    forall p
      ensures p in Exec(fs, ops).fs.files <==> p in fs.files || p in WrittenPaths(ops)
      ensures Prior(Exec(fs, ops).fs, p) == Prior(fs, p) + AppendedTo(ops, p)
    {
      AppendsFiles(fs, ops, p);
      AppendsContent(fs, ops, p);
    }
    AppendsSucceed(fs, ops);
  }

  /** The state after the first append, and the appends still to run. */
  lemma AppendsStep(fs: Fs, ops: seq<Op>)
    requires AllAppends(ops) && |ops| > 0
    ensures AllAppends(ops[1..])
    ensures Exec(fs, ops)
              == Exec(fs.(files := fs.files[ops[0].path := Prior(fs, ops[0].path) + ops[0].lines]), ops[1..])
  {
  }

  lemma {:induction false} AppendsSucceed(fs: Fs, ops: seq<Op>)
    requires AllAppends(ops)
    ensures Exec(fs, ops).error.None?
    ensures Exec(fs, ops).fs.dirs == fs.dirs
    decreases |ops|
  {
    if |ops| > 0 {
      AppendsStep(fs, ops);
      AppendsSucceed(fs.(files := fs.files[ops[0].path := Prior(fs, ops[0].path) + ops[0].lines]), ops[1..]);
    }
  }

  lemma {:induction false} AppendsFiles(fs: Fs, ops: seq<Op>, p: string)
    requires AllAppends(ops)
    ensures p in Exec(fs, ops).fs.files <==> p in fs.files || p in WrittenPaths(ops)
    decreases |ops|
  {
    if |ops| > 0 {
      AppendsStep(fs, ops);
      assert WrittenPaths(ops) == [ops[0].path] + WrittenPaths(ops[1..]);
      AppendsFiles(fs.(files := fs.files[ops[0].path := Prior(fs, ops[0].path) + ops[0].lines]), ops[1..], p);
    }
  }

  lemma {:induction false} AppendsContent(fs: Fs, ops: seq<Op>, p: string)
    requires AllAppends(ops)
    ensures Prior(Exec(fs, ops).fs, p) == Prior(fs, p) + AppendedTo(ops, p)
    decreases |ops|
  {
    if |ops| > 0 {
      var o := ops[0];
      var next := fs.(files := fs.files[o.path := Prior(fs, o.path) + o.lines]);
      var added := if p == o.path then o.lines else [];
      AppendsStep(fs, ops);
      AppendsContent(next, ops[1..], p);
      assert AppendedTo(ops, p) == added + AppendedTo(ops[1..], p);
      assert Prior(next, p) == Prior(fs, p) + added;
    }
  }

  lemma {:induction false} ExecAppend(fs: Fs, a: seq<Op>, b: seq<Op>)
    requires Exec(fs, a).error.None?
    ensures Exec(fs, a + b) == Exec(Exec(fs, a).fs, b)
    decreases |a|
  {
    if |a| > 0 {
      assert (a + b)[0] == a[0];
      assert (a + b)[1..] == a[1..] + b;
      ExecAppend(Apply(fs, a[0]).value, a[1..], b);
    } else {
      assert a + b == b;
    }
  }

  /** No operation removes anything. */
  predicate NoRemovals(ops: seq<Op>) {
    forall k :: 0 <= k < |ops| ==> !ops[k].ResetDir?
  }

  lemma NoRemovalsAppend(a: seq<Op>, b: seq<Op>)
    requires NoRemovals(a) && NoRemovals(b)
    ensures NoRemovals(a + b)
  {
  }

  /** Without removals, a run that completes holds exactly the files that
      were there before and the ones it wrote: nothing else appears and
      nothing disappears. */
  lemma {:induction false} ExecFiles(fs: Fs, ops: seq<Op>, p: string)
    requires NoRemovals(ops)
    requires Exec(fs, ops).error.None?
    ensures p in Exec(fs, ops).fs.files <==> p in fs.files || p in WrittenPaths(ops)
    decreases |ops|
  {
    if |ops| > 0 {
      var next := Apply(fs, ops[0]).value;
      assert Exec(fs, ops) == Exec(next, ops[1..]);
      assert p in next.files <==> p in fs.files || (ops[0].WriteFile? && ops[0].path == p);
      assert WrittenPaths(ops) == (if ops[0].WriteFile? then [ops[0].path] else []) + WrittenPaths(ops[1..]);
      ExecFiles(next, ops[1..], p);
    }
  }

  /** No directory and no file lies under `d`. */
  predicate NothingUnder(fs: Fs, d: string) {
    && (forall x :: x in fs.dirs ==> !IsPrefix(d, x))
    && (forall p :: p in fs.files ==> !IsPrefix(d, p))
  }

  /** The paths an operation can change. */
  predicate Touches(op: Op, q: string) {
    match op
    case Message(_) => false
    case ResetDir(d) => IsPrefix(d, q)
    case MakeDir(d) => d == q
    case WriteFile(p, _, _) => p == q
  }

  /** Nothing else changes: a path no operation touches keeps its
      directory status, its existence as a file and its content. */
  lemma {:induction false} ExecFrame(fs: Fs, ops: seq<Op>, q: string)
    requires forall k :: 0 <= k < |ops| ==> !Touches(ops[k], q)
    ensures q in Exec(fs, ops).fs.dirs <==> q in fs.dirs
    ensures q in Exec(fs, ops).fs.files <==> q in fs.files
    ensures Prior(Exec(fs, ops).fs, q) == Prior(fs, q)
    decreases |ops|
  {
    if |ops| > 0 {
      match Apply(fs, ops[0])
      case Failure(_) =>
      case Success(next) =>
        assert q in next.dirs <==> q in fs.dirs;
        assert q in next.files <==> q in fs.files;
        assert Prior(next, q) == Prior(fs, q);
        ExecFrame(next, ops[1..], q);
    }
  }

  /** Writing never fails: `open` in `"w"` or `"ab"` mode is assumed to
      succeed once the parent directory exists. */
  lemma {:induction false} ExecWritesSucceed(fs: Fs, ops: seq<Op>)
    requires forall k :: 0 <= k < |ops| ==> ops[k].WriteFile?
    ensures Exec(fs, ops).error.None?
    decreases |ops|
  {
    if |ops| > 0 {
      ExecWritesSucceed(Apply(fs, ops[0]).value, ops[1..]);
    }
  }

  /** Operations that only write files under `dir` succeed and leave every
      path outside `dir` as it was. */
  lemma WritesUnder(fs: Fs, ops: seq<Op>, dir: string, q: string)
    requires forall k :: 0 <= k < |ops| ==> ops[k].WriteFile? && IsPrefix(dir, ops[k].path)
    requires !IsPrefix(dir, q)
    ensures Exec(fs, ops).error.None?
    ensures q in Exec(fs, ops).fs.dirs <==> q in fs.dirs
    ensures q in Exec(fs, ops).fs.files <==> q in fs.files
    ensures Prior(Exec(fs, ops).fs, q) == Prior(fs, q)
  {
    ExecWritesSucceed(fs, ops);
    ExecFrame(fs, ops, q);
  }

  /** Removing and recreating `d`, when no regular file is named `d` and a
      `d` that is not a directory has nothing under it: it succeeds, leaves
      `d` as the only thing under `d`, and changes nothing elsewhere. */
  lemma ResetDirFresh(fs: Fs, d: string)
    requires d !in fs.files
    requires d in fs.dirs || NothingUnder(fs, d)
    ensures Exec(fs, [ResetDir(d)]).error.None?
    ensures d in Exec(fs, [ResetDir(d)]).fs.dirs
    ensures forall x :: x in Exec(fs, [ResetDir(d)]).fs.dirs && IsPrefix(d, x) ==> x == d
    ensures forall p :: p in Exec(fs, [ResetDir(d)]).fs.files ==> !IsPrefix(d, p)
    ensures forall q :: !IsPrefix(d, q) ==>
              && (q in Exec(fs, [ResetDir(d)]).fs.dirs <==> q in fs.dirs)
              && (q in Exec(fs, [ResetDir(d)]).fs.files <==> q in fs.files)
              && Prior(Exec(fs, [ResetDir(d)]).fs, q) == Prior(fs, q)
  {
  }
}

=== FILE: plan.dfy ===
/** The effects the script has, as a plan of operations on the file tree,
    and the outcome of a run: the operations issued before it stopped and
    the exception that stopped it, if any. */
module Plan {
  import opened Base
  import opened Tables

  /** `"ab"` (append) or `"w"` (create or truncate) mode of `open`. */
  datatype Mode = Append | Create

  /** One output line. Numeric lines keep their values; their textual
      rendering (`%7.2f %.4e`, or the default `savetxt` format) is not
      modelled. */
  datatype Line =
    | TextLine(text: string)
    | PairLine(wavenumber: Num, intensity: Num)
    | QuadLine(pressure: Num, value: Num, lower: Num, upper: Num)

  datatype Op =
    | Message(text: string)                            // a line printed on stdout
    | ResetDir(dir: string)                            // remove the tree if present, then create it
    | MakeDir(dir: string)                             // `makedirs`, which fails if it exists
    | WriteFile(path: string, mode: Mode, lines: seq<Line>)

  datatype Outcome = Outcome(ops: seq<Op>, error: Option<Error>)

  /** Running `a` and then, if `a` did not raise, `b`. */
  function Then(a: Outcome, b: Outcome): (r: Outcome)
    ensures a.error.Some? ==> r == a
    ensures a.error.None? ==> r.ops == a.ops + b.ops && r.error == b.error
  {
    if a.error.Some? then a else Outcome(a.ops + b.ops, b.error)
  }

  lemma ThenAssociative(a: Outcome, b: Outcome, c: Outcome)
    ensures Then(Then(a, b), c) == Then(a, Then(b, c))
  {
  }

  /** The paths written, in order. */
  function WrittenPaths(ops: seq<Op>): (r: seq<string>)
    ensures |r| <= |ops|
    ensures forall k :: 0 <= k < |ops| && ops[k].WriteFile? ==> ops[k].path in r
    ensures forall p :: p in r ==> exists k :: 0 <= k < |ops| && ops[k].WriteFile? && ops[k].path == p
  {
    if |ops| == 0 then []
    else if ops[0].WriteFile? then [ops[0].path] + WrittenPaths(ops[1..])
    else WrittenPaths(ops[1..])
  }

  lemma {:induction false} WrittenPathsAppend(a: seq<Op>, b: seq<Op>)
    ensures WrittenPaths(a + b) == WrittenPaths(a) + WrittenPaths(b)
  {
    if |a| == 0 {
      assert a + b == b;
    } else {
      assert (a + b)[1..] == a[1..] + b;
      WrittenPathsAppend(a[1..], b);
    }
  }

  /** When every operation writes, the written paths are the operations'
      paths, one for one. */
  lemma {:induction false} WrittenPathsOfWrites(ops: seq<Op>)
    requires forall k :: 0 <= k < |ops| ==> ops[k].WriteFile?
    ensures |WrittenPaths(ops)| == |ops|
    ensures forall k :: 0 <= k < |ops| ==> WrittenPaths(ops)[k] == ops[k].path
  {
    if |ops| > 0 {
      WrittenPathsOfWrites(ops[1..]);
    }
  }
}

=== FILE: profiles.dfy ===
/** `extract_and_save_profile`: the rows of a profile table retrieved with
    a 1-sigma error, projected to pressure, value and its two bounds. */
module Profiles {
  import opened Base
  import opened Tables
  import opened Plan

  /** The confidence flag column. */
  const SigmaColumn: string := "SIGMA"

  /** `data['SIGMA'] == 1` for one row whose flag sits in column `s`. */
  predicate Confident(row: seq<Num>, s: nat) {
    s < |row| && row[s] == 1.0
  }

  /** `data[where(data['SIGMA'] == 1)]`: the confident rows, in order. */
  function Kept(rows: seq<seq<Num>>, s: nat): (r: seq<seq<Num>>)
    ensures |r| <= |rows|
    ensures forall k :: 0 <= k < |r| ==> r[k] in rows && Confident(r[k], s)
  {
    if |rows| == 0 then []
    else (if Confident(rows[0], s) then [rows[0]] else []) + Kept(rows[1..], s)
  }

  /** No row is kept only when no row is confident. */
  lemma {:induction false} KeptEmpty(rows: seq<seq<Num>>, s: nat)
    requires |Kept(rows, s)| == 0
    ensures forall k :: 0 <= k < |rows| ==> !Confident(rows[k], s)
  {
    if |rows| > 0 {
      KeptEmpty(rows[1..], s);
      assert forall k :: 1 <= k < |rows| ==> rows[k] == rows[1..][k - 1];
    }
  }

  /** A kept row is a confident row of the table. */
  lemma KeptFromRows(rows: seq<seq<Num>>, s: nat)
    requires |Kept(rows, s)| > 0
    ensures exists k :: 0 <= k < |rows| && s < |rows[k]| && rows[k][s] == 1.0
  {
  }

  /** Fields 1 to 4 of a row: pressure, then temperature or volume mixing
      ratio with its lower and upper bound. */
  function Project(row: seq<Num>): Line
    requires |row| >= 5
  {
    QuadLine(row[1], row[2], row[3], row[4])
  }

  /** One output line per kept row, in order. */
  function Lines(kept: seq<seq<Num>>): (r: seq<Line>)
    requires forall k :: 0 <= k < |kept| ==> |kept[k]| >= 5
    ensures |r| == |kept|
    ensures forall k :: 0 <= k < |kept| ==> r[k] == Project(kept[k])
  {
    if |kept| == 0 then [] else [Project(kept[0])] + Lines(kept[1..])
  }

  /** `extract_and_save_profile(name, data)`. A missing flag column raises
      `KeyError`; no confident row means no file at all; otherwise one file
      `name.txt` with one line per confident row, in the table's order. */
  function Extract(name: string, data: Table): (r: Outcome)
    requires WellFormed(data)
    ensures SigmaColumn !in data.names ==> r == Outcome([], Some(KeyError(SigmaColumn)))
    ensures SigmaColumn in data.names ==>
              var s := FieldIndex(data.names, SigmaColumn).value;
              && ((forall k :: 0 <= k < |data.rows| ==> data.rows[k][s] != 1.0) ==> r == Outcome([], None))
              && ((exists k :: 0 <= k < |data.rows| && data.rows[k][s] == 1.0) ==>
                    if |data.names| < 5 then r.ops == [] && r.error.Some? && r.error.value.IndexError?
                    else
                      && r.error.None?
                      && |r.ops| == 1
                      && r.ops[0].WriteFile? && r.ops[0].path == name + ".txt" && r.ops[0].mode == Create
                      && |r.ops[0].lines| == |Kept(data.rows, s)|
                      && forall k :: 0 <= k < |Kept(data.rows, s)| ==> r.ops[0].lines[k] == Project(Kept(data.rows, s)[k]))
  {
    match FieldIndex(data.names, SigmaColumn)
    case None => Outcome([], Some(KeyError(SigmaColumn)))
    case Some(s) =>
      var kept := Kept(data.rows, s);
      if |kept| == 0 then
        KeptEmpty(data.rows, s);
        Outcome([], None)
      else if |data.names| < 5 then
        KeptFromRows(data.rows, s);
        Outcome([], Some(IndexError("data.field(4)")))
      else
        KeptFromRows(data.rows, s);
        Outcome([WriteFile(name + ".txt", Create, Lines(kept))], None)
  }

  /** The selection keeps every confident row with its multiplicity and
      drops every other row. */
  lemma {:induction false} KeptMultiplicity(rows: seq<seq<Num>>, s: nat, row: seq<Num>)
    ensures multiset(Kept(rows, s))[row] == if Confident(row, s) then multiset(rows)[row] else 0
    decreases |rows|
  {
    if |rows| > 0 {
      KeptMultiplicity(rows[1..], s, row);
      assert rows == [rows[0]] + rows[1..];
      assert multiset(rows) == multiset([rows[0]]) + multiset(rows[1..]);
    }
  }

  /** The selection keeps the table's order: the kept rows of a prefix come
      before the kept rows of the rest. */
  lemma {:induction false} KeptInOrder(a: seq<seq<Num>>, b: seq<seq<Num>>, s: nat)
    ensures Kept(a + b, s) == Kept(a, s) + Kept(b, s)
  {
    if |a| == 0 {
      assert a + b == b;
    } else {
      assert (a + b)[1..] == a[1..] + b;
      KeptInOrder(a[1..], b, s);
    }
  }

  /** Five rows flagged 1, 0, 1, 1, 0 give a file of three lines: rows 0, 2
      and 3, in that order. */
  lemma FiveRowsThreeKept(name: string, names: seq<string>, r0: seq<Num>, r1: seq<Num>, r2: seq<Num>,
                          r3: seq<Num>, r4: seq<Num>, s: nat)
    requires |names| >= 5 && FieldIndex(names, SigmaColumn) == Some(s)
    requires |r0| == |r1| == |r2| == |r3| == |r4| == |names|
    requires r0[s] == 1.0 && r1[s] == 0.0 && r2[s] == 1.0 && r3[s] == 1.0 && r4[s] == 0.0
    ensures WellFormed(Table(names, [r0, r1, r2, r3, r4]))
    ensures Extract(name, Table(names, [r0, r1, r2, r3, r4])) ==
              Outcome([WriteFile(name + ".txt", Create, [Project(r0), Project(r2), Project(r3)])], None)
  {
    var data := Table(names, [r0, r1, r2, r3, r4]);
    FiveRowsKept(names, r0, r1, r2, r3, r4, s);
    ExtractWrites(name, data, s);
    ThreeLines(r0, r2, r3);
  }

  /** The five rows of that table: rectangular, and rows 0, 2 and 3 kept. */
  lemma FiveRowsKept(names: seq<string>, r0: seq<Num>, r1: seq<Num>, r2: seq<Num>,
                     r3: seq<Num>, r4: seq<Num>, s: nat)
    requires |names| >= 5 && FieldIndex(names, SigmaColumn) == Some(s)
    requires |r0| == |r1| == |r2| == |r3| == |r4| == |names|
    requires r0[s] == 1.0 && r1[s] == 0.0 && r2[s] == 1.0 && r3[s] == 1.0 && r4[s] == 0.0
    ensures WellFormed(Table(names, [r0, r1, r2, r3, r4]))
    ensures Kept([r0, r1, r2, r3, r4], s) == [r0, r2, r3]
    ensures |r0| >= 5 && |r2| >= 5 && |r3| >= 5
  {
    FiveRowsWellFormed(names, r0, r1, r2, r3, r4);
    KeptFlags([r0, r1, r2, r3, r4], s);
  }

  lemma FiveRowsWellFormed(names: seq<string>, r0: seq<Num>, r1: seq<Num>, r2: seq<Num>, r3: seq<Num>, r4: seq<Num>)
    requires |r0| == |r1| == |r2| == |r3| == |r4| == |names|
    ensures WellFormed(Table(names, [r0, r1, r2, r3, r4]))
  {
  }

  lemma ThreeLines(r0: seq<Num>, r1: seq<Num>, r2: seq<Num>)
    requires |r0| >= 5 && |r1| >= 5 && |r2| >= 5
    ensures Lines([r0, r1, r2]) == [Project(r0), Project(r1), Project(r2)]
  {
  }

  /** The selection on five rows flagged 1, 0, 1, 1, 0. */
  lemma KeptFlags(rows: seq<seq<Num>>, s: nat)
    requires |rows| == 5
    requires Confident(rows[0], s) && !Confident(rows[1], s) && Confident(rows[2], s)
    requires Confident(rows[3], s) && !Confident(rows[4], s)
    ensures Kept(rows, s) == [rows[0], rows[2], rows[3]]
  {
    assert Kept(rows[4..], s) == [] by {
      assert rows[4..][1..] == [];
    }
    assert Kept(rows[3..], s) == [rows[3]] by {
      assert rows[3..][1..] == rows[4..];
    }
    assert Kept(rows[2..], s) == [rows[2], rows[3]] by {
      assert rows[2..][1..] == rows[3..];
    }
    assert Kept(rows[1..], s) == [rows[2], rows[3]] by {
      assert rows[1..][1..] == rows[2..];
    }
  }

  /** With the flag column at `s`, a confident row and five columns, the
      call writes exactly the projected confident rows to `name.txt`. */
  lemma ExtractWrites(name: string, data: Table, s: nat)
    requires WellFormed(data) && |data.names| >= 5
    requires FieldIndex(data.names, SigmaColumn) == Some(s)
    requires |Kept(data.rows, s)| > 0
    ensures Extract(name, data) == Outcome([WriteFile(name + ".txt", Create, Lines(Kept(data.rows, s)))], None)
  {
  }

  /** A profile call that raises nothing creates at most the one file
      `name.txt`. */
  lemma ExtractCreatesOnly(name: string, data: Table)
    requires WellFormed(data)
    requires Extract(name, data).error.None?
    ensures |Extract(name, data).ops| <= 1
    ensures forall k :: 0 <= k < |Extract(name, data).ops| ==>
              Extract(name, data).ops[k].WriteFile? && Extract(name, data).ops[k].path == name + ".txt"
  {
  }
}

=== FILE: seqs.dfy ===
/** Order-preserving filtering of sequences. */
module Seqs {

  /** The elements of `s` that satisfy `p`, in their original order
      (a Python list comprehension with an `if` clause). */
  function Filter<T>(p: T -> bool, s: seq<T>): (r: seq<T>)
    ensures |r| <= |s|
    ensures forall k :: 0 <= k < |r| ==> r[k] in s && p(r[k])
    ensures forall k :: 0 <= k < |s| && p(s[k]) ==> s[k] in r
  {
    if |s| == 0 then []
    else if p(s[0]) then [s[0]] + Filter(p, s[1..])
    else Filter(p, s[1..])
  }

  /** Filtering distributes over concatenation: the kept elements of a
      prefix come before the kept elements of the rest. */
  lemma {:induction false} FilterAppend<T>(p: T -> bool, a: seq<T>, b: seq<T>)
    ensures Filter(p, a + b) == Filter(p, a) + Filter(p, b)
  {
    if |a| == 0 {
      assert a + b == b;
    } else {
      assert (a + b)[1..] == a[1..] + b;
      FilterAppend(p, a[1..], b);
    }
  }

  /** Every element keeps its multiplicity when it satisfies `p` and
      disappears otherwise. */
  lemma {:induction false} FilterMultiset<T>(p: T -> bool, s: seq<T>, x: T)
    ensures multiset(Filter(p, s))[x] == if p(x) then multiset(s)[x] else 0
  {
    if |s| > 0 {
      var head := if p(s[0]) then [s[0]] else [];
      FilterMultiset(p, s[1..], x);
      assert Filter(p, s) == head + Filter(p, s[1..]);
      assert multiset(Filter(p, s)) == multiset(head) + multiset(Filter(p, s[1..]));
      assert s == [s[0]] + s[1..];
      assert multiset(s) == multiset([s[0]]) + multiset(s[1..]);
    }
  }

  /** Filtering a sequence whose every element fails `p` gives nothing. */
  lemma {:induction false} FilterNone<T>(p: T -> bool, s: seq<T>)
    requires forall k :: 0 <= k < |s| ==> !p(s[k])
    ensures Filter(p, s) == []
  {
    if |s| > 0 {
      FilterNone(p, s[1..]);
    }
  }
}

=== FILE: spectra.dfy ===
/** `extract_and_save_spectra`: one `.spe` block per spectrum column of a
    `SPECTRA_FP*` table, filed under the truncated altitude of that column
    in the paired `ALTITUDE_FP*` table. */
module Spectra {
  import opened Base
  import opened Strings
  import opened Tables
  import opened Plan
  import opened FileSystem

  /** The first line of every block, expected by the retrieval code. */
  const Provenance: string := "# Spectrum from Mathe et al. 2019"

  /** `name + '/limb_' + str(alt) + 'km.spe'`. */
  function SpePath(dir: string, alt: int): string {
    dir + "/limb_" + IntToString(alt) + "km.spe"
  }

  /** Two columns share a file exactly when their truncated altitudes agree. */
  lemma SpePathInjective(dir: string, a: int, b: int)
    ensures SpePath(dir, a) == SpePath(dir, b) <==> a == b
  {
    if SpePath(dir, a) == SpePath(dir, b) {
      var s := SpePath(dir, a);
      var n := |dir| + 6;
      assert s[n..|s| - 6] == IntToString(a);
      assert SpePath(dir, b)[n..|s| - 6] == IntToString(b);
      IntToStringInjective(a, b);
    }
  }

  /** Every spectrum file lies inside the spectrum directory. */
  lemma SpePathUnder(dir: string, a: int)
    ensures IsPrefix(dir + "/", SpePath(dir, a))
  {
  }

  /** `data.shape[0]`: the number of spectral points. */
  function PointCount(data: Table): nat {
    |data.rows|
  }

  /** `len(data[0]) - 1`: the number of spectra, the first field being the
      wavenumber axis. Negative when the table has no field at all. */
  function SpectrumCount(data: Table): int
    requires |data.rows| > 0
  {
    |data.rows[0]| - 1
  }

  /** `int(altitude.field(0)[i])`. */
  function Altitude(altitude: Table, i: nat): int
    requires WellFormed(altitude)
    requires |altitude.names| > 0 && i < |altitude.rows|
  {
    Trunc(altitude.rows[i][0])
  }

  /** The body of column `i`: each row's wavenumber paired with its
      intensity in spectrum `i`. */
  function Body(data: Table, i: nat): seq<Line>
    requires WellFormed(data) && i + 1 < |data.names|
  {
    seq(|data.rows|, k requires 0 <= k < |data.rows| => PairLine(data.rows[k][0], data.rows[k][1 + i]))
  }

  /** The three header lines and the body written for column `i`. */
  function Block(data: Table, alt: int, i: nat): seq<Line>
    requires WellFormed(data) && i + 1 < |data.names|
  {
    [TextLine(Provenance), TextLine(IntToString(PointCount(data))), TextLine(IntToString(alt))] + Body(data, i)
  }

  /** A block starts with the provenance comment; its second line reads
      back as the number of body lines and its third as the altitude; the
      body pairs column 0 with column `1 + i`, row by row. */
  lemma BlockLayout(data: Table, alt: int, i: nat)
    requires WellFormed(data) && i + 1 < |data.names|
    ensures |Block(data, alt, i)| == 3 + |data.rows|
    ensures Block(data, alt, i)[0] == TextLine(Provenance)
    ensures ParseInt(Block(data, alt, i)[1].text) == Some(|Block(data, alt, i)| - 3)
    ensures ParseInt(Block(data, alt, i)[2].text) == Some(alt)
    ensures forall k :: 0 <= k < |data.rows| ==>
              Block(data, alt, i)[3 + k] == PairLine(data.rows[k][0], data.rows[k][1 + i])
  {
    IntRoundTrip(|data.rows|);
    IntRoundTrip(alt);
  }

  /** The append of column `i`'s block to the file of its altitude. */
  function BlockOp(dir: string, data: Table, altitude: Table, i: nat): Op
    requires WellFormed(data) && WellFormed(altitude)
    requires i + 1 < |data.names| && |altitude.names| > 0 && i < |altitude.rows|
  {
    WriteFile(SpePath(dir, Altitude(altitude, i)), Append, Block(data, Altitude(altitude, i), i))
  }

  function Min(a: int, b: int): int {
    if a <= b then a else b
  }

  /** How many blocks the loop writes from column `i` on: up to the last
      spectrum, or until `altitude.field(0)[i]` raises. */
  function BlocksWritten(data: Table, altitude: Table, i: nat): nat
    requires |data.rows| > 0
  {
    var count := SpectrumCount(data);
    if i >= count || |altitude.names| == 0 || i >= |altitude.rows| then 0
    else Min(count, |altitude.rows|) - i
  }

  /** The loop over spectrum columns from column `i` on. */
  function Columns(dir: string, data: Table, altitude: Table, i: nat): (r: Outcome)
    requires WellFormed(data) && WellFormed(altitude) && |data.rows| > 0
    decreases |data.rows[0]| - i
    ensures |r.ops| == BlocksWritten(data, altitude, i)
    ensures forall k :: 0 <= k < |r.ops| ==> r.ops[k] == BlockOp(dir, data, altitude, i + k)
    ensures r.error.None? <==>
              i >= SpectrumCount(data) || (|altitude.names| > 0 && |altitude.rows| >= SpectrumCount(data))
    ensures r.error.Some? ==> r.error.value.IndexError?
  {
    if i + 1 >= |data.rows[0]| then Outcome([], None)
    else if |altitude.names| == 0 then Outcome([], Some(IndexError("altitude.field(0)")))
    else if i >= |altitude.rows| then Outcome([], Some(IndexError("altitude.field(0)[i]")))
    else
      var rest := Columns(dir, data, altitude, i + 1);
      Outcome([BlockOp(dir, data, altitude, i)] + rest.ops, rest.error)
  }

  /** The tables let every spectrum column be written: there is a first
      row, and an altitude for each spectrum column. */
  predicate Complete(data: Table, altitude: Table) {
    |data.rows| > 0 &&
    (SpectrumCount(data) <= 0 || (|altitude.names| > 0 && |altitude.rows| >= SpectrumCount(data)))
  }

  /** `extract_and_save_spectra(dir, data, altitude)`. */
  function Extract(dir: string, data: Table, altitude: Table): (r: Outcome)
    requires WellFormed(data) && WellFormed(altitude)
    ensures |r.ops| >= 1 && r.ops[0] == MakeDir(dir)
    ensures |r.ops| == 1 + if |data.rows| == 0 then 0 else BlocksWritten(data, altitude, 0)
    ensures r.error.None? <==> Complete(data, altitude)
    ensures r.error.Some? ==> r.error.value.IndexError?
    ensures r.error.None? ==> |r.ops| - 1 == if SpectrumCount(data) < 0 then 0 else SpectrumCount(data)
    ensures forall i :: 0 <= i < |r.ops| - 1 ==> r.ops[1 + i] == BlockOp(dir, data, altitude, i)
  {
    if |data.rows| == 0 then Outcome([MakeDir(dir)], Some(IndexError("data[0]")))
    else
      var rest := Columns(dir, data, altitude, 0);
      Outcome([MakeDir(dir)] + rest.ops, rest.error)
  }

  /** Reference definition of a spectrum file's content: the blocks of the
      columns from `i` on whose truncated altitude is `a`, in column order. */
  function BlocksAt(data: Table, altitude: Table, a: int, i: nat): seq<Line>
    requires WellFormed(data) && WellFormed(altitude) && Complete(data, altitude)
    decreases |data.rows[0]| - i
  {
    if i >= SpectrumCount(data) then []
    else (if Altitude(altitude, i) == a then Block(data, a, i) else []) + BlocksAt(data, altitude, a, i + 1)
  }

  lemma {:induction false} ColumnsAppendTo(dir: string, data: Table, altitude: Table, a: int, i: nat)
    requires WellFormed(data) && WellFormed(altitude) && Complete(data, altitude)
    ensures AppendedTo(Columns(dir, data, altitude, i).ops, SpePath(dir, a)) == BlocksAt(data, altitude, a, i)
    decreases |data.rows[0]| - i
  {
    if i < SpectrumCount(data) {
      var ops := Columns(dir, data, altitude, i).ops;
      assert ops[1..] == Columns(dir, data, altitude, i + 1).ops;
      SpePathInjective(dir, Altitude(altitude, i), a);
      ColumnsAppendTo(dir, data, altitude, a, i + 1);
    }
  }

  /** Opening in append mode inside a fresh directory: after the run the
      file of altitude `a` exists exactly when some spectrum column has that
      truncated altitude, and it holds the blocks of all such columns, in
      column order. */
  lemma SpeFileContent(fs: Fs, dir: string, data: Table, altitude: Table, a: int)
    requires WellFormed(data) && WellFormed(altitude) && Complete(data, altitude)
    requires dir !in fs.dirs && dir !in fs.files
    requires forall p :: p in fs.files ==> !IsPrefix(dir + "/", p)
    ensures Run(fs, Extract(dir, data, altitude)).error.None?
    ensures Run(fs, Extract(dir, data, altitude)).fs.dirs == fs.dirs + {dir}
    ensures SpePath(dir, a) in Run(fs, Extract(dir, data, altitude)).fs.files <==>
              exists i :: 0 <= i < SpectrumCount(data) && Altitude(altitude, i) == a
    ensures Prior(Run(fs, Extract(dir, data, altitude)).fs, SpePath(dir, a)) == BlocksAt(data, altitude, a, 0)
  {
    var cols := Columns(dir, data, altitude, 0).ops;
    var fs1 := fs.(dirs := fs.dirs + {dir});
    ExtractStart(fs, dir, data, altitude);
    ExecAppends(fs1, cols);
    ColumnsAppendTo(dir, data, altitude, a, 0);
    ColumnsWriteAltitude(dir, data, altitude, a);
    SpePathUnder(dir, a);
    assert Prior(fs1, SpePath(dir, a)) == [];
  }

  /** In a fresh directory the run is its `makedirs` followed by appends. */
  lemma ExtractStart(fs: Fs, dir: string, data: Table, altitude: Table)
    requires WellFormed(data) && WellFormed(altitude) && Complete(data, altitude)
    requires dir !in fs.dirs && dir !in fs.files
    ensures AllAppends(Columns(dir, data, altitude, 0).ops)
    ensures Run(fs, Extract(dir, data, altitude))
              == Exec(fs.(dirs := fs.dirs + {dir}), Columns(dir, data, altitude, 0).ops)
  {
  }

  /** The loop writes to the file of altitude `a` exactly when some
      spectrum column has that truncated altitude. */
  lemma ColumnsWriteAltitude(dir: string, data: Table, altitude: Table, a: int)
    requires WellFormed(data) && WellFormed(altitude) && Complete(data, altitude)
    ensures SpePath(dir, a) in WrittenPaths(Columns(dir, data, altitude, 0).ops) <==>
              exists i :: 0 <= i < SpectrumCount(data) && Altitude(altitude, i) == a
  {
    if SpePath(dir, a) in WrittenPaths(Columns(dir, data, altitude, 0).ops) {
      WrittenFileHasColumn(dir, data, altitude, a);
    }
    if exists i :: 0 <= i < SpectrumCount(data) && Altitude(altitude, i) == a {
      var i :| 0 <= i < SpectrumCount(data) && Altitude(altitude, i) == a;
      ColumnWritesItsFile(dir, data, altitude, i);
    }
  }

  lemma ColumnWritesItsFile(dir: string, data: Table, altitude: Table, i: nat)
    requires WellFormed(data) && WellFormed(altitude) && Complete(data, altitude)
    requires i < SpectrumCount(data)
    ensures SpePath(dir, Altitude(altitude, i)) in WrittenPaths(Columns(dir, data, altitude, 0).ops)
  {
    var cols := Columns(dir, data, altitude, 0).ops;
    assert cols[i] == BlockOp(dir, data, altitude, i);
  }

  lemma WrittenFileHasColumn(dir: string, data: Table, altitude: Table, a: int)
    requires WellFormed(data) && WellFormed(altitude) && Complete(data, altitude)
    requires SpePath(dir, a) in WrittenPaths(Columns(dir, data, altitude, 0).ops)
    ensures exists i :: 0 <= i < SpectrumCount(data) && Altitude(altitude, i) == a
  {
    var cols := Columns(dir, data, altitude, 0).ops;
    var k :| 0 <= k < |cols| && cols[k].WriteFile? && cols[k].path == SpePath(dir, a);
    assert cols[k] == BlockOp(dir, data, altitude, k);
    SpePathInjective(dir, Altitude(altitude, k), a);
  }

  lemma {:induction false} BlocksAtNone(data: Table, altitude: Table, a: int, i: nat)
    requires WellFormed(data) && WellFormed(altitude) && Complete(data, altitude)
    requires forall j :: i <= j < SpectrumCount(data) ==> Altitude(altitude, j) != a
    ensures BlocksAt(data, altitude, a, i) == []
    decreases |data.rows[0]| - i
  {
    if i < SpectrumCount(data) {
      BlocksAtNone(data, altitude, a, i + 1);
    }
  }

  /** A column whose truncated altitude no other column shares gets a file
      of its own holding exactly its block. */
  lemma {:induction false} UniqueAltitudeOneBlock(data: Table, altitude: Table, j: nat, i: nat)
    requires WellFormed(data) && WellFormed(altitude) && Complete(data, altitude)
    requires i <= j < SpectrumCount(data)
    requires forall k :: 0 <= k < SpectrumCount(data) && k != j ==> Altitude(altitude, k) != Altitude(altitude, j)
    ensures BlocksAt(data, altitude, Altitude(altitude, j), i) == Block(data, Altitude(altitude, j), j)
    decreases j - i
  {
    var a := Altitude(altitude, j);
    if i < j {
      UniqueAltitudeOneBlock(data, altitude, j, i + 1);
    } else {
      BlocksAtNone(data, altitude, a, j + 1);
    }
  }

  /** The files written, in order: one per spectrum column, named by that
      column's truncated altitude. */
  lemma SpectraWrittenPaths(dir: string, data: Table, altitude: Table)
    requires WellFormed(data) && WellFormed(altitude) && Complete(data, altitude)
    ensures |WrittenPaths(Extract(dir, data, altitude).ops)| == if SpectrumCount(data) < 0 then 0 else SpectrumCount(data)
    ensures forall i :: 0 <= i < |WrittenPaths(Extract(dir, data, altitude).ops)| ==>
              WrittenPaths(Extract(dir, data, altitude).ops)[i] == SpePath(dir, Altitude(altitude, i))
  {
    var ops := Extract(dir, data, altitude).ops;
    var cols := Columns(dir, data, altitude, 0).ops;
    assert ops == [MakeDir(dir)] + cols;
    WrittenPathsAppend([MakeDir(dir)], cols);
    WrittenPathsOfWrites(cols);
  }

  /** The spectra of one directory touch that directory and the paths
      inside it, nothing else. */
  lemma ExtractTouchesOnly(dir: string, data: Table, altitude: Table, q: string)
    requires WellFormed(data) && WellFormed(altitude)
    requires q != dir && !IsPrefix(dir + "/", q)
    ensures forall k :: 0 <= k < |Extract(dir, data, altitude).ops| ==> !Touches(Extract(dir, data, altitude).ops[k], q)
  {
    var ops := Extract(dir, data, altitude).ops;
    forall k | 1 <= k < |ops|
      ensures !Touches(ops[k], q)
    {
      var a := Altitude(altitude, k - 1);
      assert ops[k].path == SpePath(dir, a);
      SpePathUnder(dir, a);
      assert ops[k].path[..|dir| + 1] == dir + "/";
    }
  }
}

=== FILE: strings.dfy ===
/** The Python string operations the script relies on: substring test,
    `str.split`, negative-stop slicing and `str` of an integer. */
module Strings {
  import opened Base

  /** `t` occurs in `s` starting at index `i`. */
  predicate OccursAt(s: string, t: string, i: nat) {
    i + |t| <= |s| && s[i..i + |t|] == t
  }

  /** Python's `t in s` for strings. */
  predicate Contains(s: string, t: string) {
    exists i: nat | i <= |s| :: OccursAt(s, t, i)
  }

  /** A string lacking one of the characters of `t` does not contain `t`. */
  lemma AbsentChar(s: string, t: string, j: nat)
    requires j < |t|
    requires forall k :: 0 <= k < |s| ==> s[k] != t[j]
    ensures !Contains(s, t)
  {
    if Contains(s, t) {
      var i: nat :| i <= |s| && OccursAt(s, t, i);
      OccurrenceChar(s, t, i, j);
      assert false;
    }
  }

  lemma OccurrenceChar(s: string, t: string, i: nat, j: nat)
    ensures OccursAt(s, t, i) && j < |t| ==> s[i + j] == t[j]
  {
  }

  predicate IsPrefix(p: string, s: string) {
    |p| <= |s| && s[..|p|] == p
  }

  lemma PrefixTransitive(a: string, b: string, c: string)
    requires IsPrefix(a, b) && IsPrefix(b, c)
    ensures IsPrefix(a, c)
  {
  }

  /** A string starting with `u` neither starts with nor equals a `v` that
      disagrees with `u` at some position both have. */
  lemma IncompatiblePrefixes(u: string, v: string, p: string, i: nat)
    requires IsPrefix(u, p)
    requires i < |u| && i < |v| && u[i] != v[i]
    ensures !IsPrefix(v, p) && p != v
  {
  }

  /** The first occurrence of `t` in `s` at or after `start`. */
  function FindFrom(s: string, t: string, start: nat): (r: Option<nat>)
    decreases |s| - start
    ensures r.Some? ==> start <= r.value && OccursAt(s, t, r.value)
    ensures r.Some? ==> forall j: nat :: start <= j < r.value ==> !OccursAt(s, t, j)
    ensures r.None? ==> forall j: nat :: start <= j ==> !OccursAt(s, t, j)
  {
    if start + |t| > |s| then None
    else if OccursAt(s, t, start) then Some(start)
    else FindFrom(s, t, start + 1)
  }

  lemma FindIffContains(s: string, t: string)
    ensures FindFrom(s, t, 0).Some? <==> Contains(s, t)
  {
  }

  /** The first character of `sep` occurs nowhere else in it. This is
      stronger than needed for occurrences not to overlap, but it is enough
      for that and easy to check: true of the literal `table`. */
  predicate FirstCharUnique(sep: string) {
    |sep| > 0 && forall d :: 0 < d < |sep| ==> sep[d] != sep[0]
  }

  /** An occurrence inside a prefix is an occurrence in the whole string. */
  lemma OccursInPrefix(s: string, t: string, n: nat, j: nat)
    requires n <= |s|
    requires OccursAt(s[..n], t, j)
    ensures OccursAt(s, t, j)
  {
  }

  /** Python's `s.split(sep)` for a non-empty separator: the pieces between
      the non-overlapping occurrences of `sep`, scanned left to right. */
  function Split(s: string, sep: string): (parts: seq<string>)
    requires |sep| > 0
    decreases |s|
    ensures |parts| >= 1
  {
    match FindFrom(s, sep, 0)
    case None => [s]
    case Some(i) => [s[..i]] + Split(s[i + |sep|..], sep)
  }

  /** The pieces never contain `sep`, and there is more than one exactly
      when `sep` occurs. */
  lemma {:induction false} SplitPieces(s: string, sep: string)
    requires |sep| > 0
    ensures |Split(s, sep)| == 1 <==> !Contains(s, sep)
    ensures forall k :: 0 <= k < |Split(s, sep)| ==> !Contains(Split(s, sep)[k], sep)
    decreases |s|
  {
    FindIffContains(s, sep);
    match FindFrom(s, sep, 0)
    case None =>
    case Some(i) =>
      var rest := s[i + |sep|..];
      SplitAtFirst(s, sep, i);
      SplitPieces(rest, sep);
      assert !Contains(s[..i], sep) by {
        forall j: nat | j <= i && OccursAt(s[..i], sep, j)
          ensures false
        {
          OccursInPrefix(s, sep, i, j);
        }
      }
  }

  /** Python's `sep.join(parts)`. */
  function Join(parts: seq<string>, sep: string): string
    requires |parts| >= 1
  {
    if |parts| == 1 then parts[0] else parts[0] + sep + Join(parts[1..], sep)
  }

  /** Splitting at the first occurrence of `sep`, which starts at `i`. */
  lemma SplitAtFirst(s: string, sep: string, i: nat)
    requires |sep| > 0 && FindFrom(s, sep, 0) == Some(i)
    ensures i + |sep| <= |s|
    ensures Split(s, sep) == [s[..i]] + Split(s[i + |sep|..], sep)
  {
  }

  /** Splitting loses nothing: joining the pieces back gives the input. */
  lemma {:induction false} SplitThenJoin(s: string, sep: string)
    requires |sep| > 0
    ensures Join(Split(s, sep), sep) == s
    decreases |s|
  {
    match FindFrom(s, sep, 0)
    case None =>
    case Some(i) =>
      var rest := s[i + |sep|..];
      var parts := Split(s, sep);
      SplitThenJoin(rest, sep);
      SplitAtFirst(s, sep, i);
      assert parts[0] == s[..i] && parts[1..] == Split(rest, sep);
      assert Join(parts, sep) == s[..i] + sep + rest;
      assert s == s[..i] + sep + rest by {
        assert s[i..i + |sep|] == sep;
        assert s == s[..i] + s[i..i + |sep|] + rest;
      }
  }

  /** Two occurrences of a separator whose first character is unique
      cannot overlap. */
  lemma OccurrencesApart(s: string, sep: string, k: nat, m: nat)
    requires FirstCharUnique(sep)
    requires OccursAt(s, sep, k) && OccursAt(s, sep, m)
    requires k < m
    ensures k + |sep| <= m
  {
    if m < k + |sep| {
      CharOfOccurrence(s, sep, m, m);
      CharOfOccurrence(s, sep, k, m);
    }
  }

  lemma CharOfOccurrence(s: string, t: string, k: nat, m: nat)
    requires OccursAt(s, t, k)
    requires k <= m < k + |t|
    ensures s[m] == t[m - k]
  {
  }

  /** When `p` has no occurrence of `sep` and the first character of `sep`
      is unique in it, the first occurrence of `sep` in `p + sep + rest` is
      the one right after `p`. */
  lemma FirstOccurrenceAfter(p: string, sep: string, rest: string)
    requires FirstCharUnique(sep)
    requires !Contains(p, sep)
    ensures FindFrom(p + sep + rest, sep, 0) == Some(|p|)
  {
    var s := p + sep + rest;
    assert s[|p|..|p| + |sep|] == sep;
    assert OccursAt(s, sep, |p|);
    var r := FindFrom(s, sep, 0);
    var k := r.value;
    if k < |p| {
      if k + |sep| <= |p| {
        assert s[k..k + |sep|] == p[k..k + |sep|];
        assert OccursAt(p, sep, k);
        assert false;
      } else {
        OccurrencesApart(s, sep, k, |p|);
      }
    }
  }

  /** Splitting is the inverse of joining pieces that do not contain the
      separator, provided the separator's first character occurs nowhere
      else in it. */
  lemma {:induction false} JoinThenSplit(parts: seq<string>, sep: string)
    requires FirstCharUnique(sep)
    requires |parts| >= 1
    requires forall k :: 0 <= k < |parts| ==> !Contains(parts[k], sep)
    ensures Split(Join(parts, sep), sep) == parts
  {
    if |parts| == 1 {
      FindIffContains(parts[0], sep);
    } else {
      var tail := Join(parts[1..], sep);
      FirstOccurrenceAfter(parts[0], sep, tail);
      var s := parts[0] + sep + tail;
      assert s[|parts[0]| + |sep|..] == tail;
      assert s[..|parts[0]|] == parts[0];
      JoinThenSplit(parts[1..], sep);
      assert parts == [parts[0]] + parts[1..];
    }
  }

  /** Python's `s[:-k]` for `k > 0`: all but the last `k` characters, or
      nothing when `s` is no longer than `k`. */
  function DropLast(s: string, k: nat): (r: string)
    requires k > 0
    ensures |s| >= k ==> |r| == |s| - k
    ensures |s| <= k ==> r == []
    ensures IsPrefix(r, s)
  {
    if |s| >= k then s[..|s| - k] else []
  }

  predicate IsDigit(c: char) {
    '0' <= c <= '9'
  }

  predicate AllDigits(s: string) {
    forall k :: 0 <= k < |s| ==> IsDigit(s[k])
  }

  function DigitChar(d: nat): (c: char)
    requires d < 10
    ensures IsDigit(c) && (c as int) - ('0' as int) == d
  {
    (('0' as int) + d) as char
  }

  /** The decimal digits of `n`, most significant first, no leading zero. */
  function NatToString(n: nat): (s: string)
    ensures |s| >= 1 && AllDigits(s)
    ensures s[0] == '0' ==> n == 0
  {
    if n < 10 then [DigitChar(n)] else NatToString(n / 10) + [DigitChar(n % 10)]
  }

  /** Python's `str` of an integer. */
  function IntToString(i: int): (s: string)
    ensures |s| >= 1
  {
    if i < 0 then "-" + NatToString(-i) else NatToString(i)
  }

  /** The value of a string of decimal digits. */
  function DecimalValue(s: string): nat
    requires AllDigits(s)
  {
    if |s| == 0 then 0
    else 10 * DecimalValue(s[..|s| - 1]) + ((s[|s| - 1] as int) - ('0' as int))
  }

  /** Python's `int` of a decimal string with an optional minus sign. */
  function ParseInt(s: string): Option<int> {
    if |s| >= 2 && s[0] == '-' && AllDigits(s[1..]) then Some(0 - DecimalValue(s[1..]) as int)
    else if |s| >= 1 && AllDigits(s) then Some(DecimalValue(s))
    else None
  }

  lemma {:induction false} NatRoundTrip(n: nat)
    ensures DecimalValue(NatToString(n)) == n
  {
    if n >= 10 {
      var s := NatToString(n);
      NatRoundTrip(n / 10);
      assert s[..|s| - 1] == NatToString(n / 10);
    }
  }

  /** Reading back the decimal text of an integer gives the integer. */
  lemma IntRoundTrip(i: int)
    ensures ParseInt(IntToString(i)) == Some(i)
  {
    var s := IntToString(i);
    if i < 0 {
      var digits := NatToString(-i);
      assert s == ['-'] + digits;
      assert s[0] == '-' && s[1..] == digits;
      NatRoundTrip(-i);
      assert ParseInt(s) == Some(0 - DecimalValue(digits) as int);
    } else {
      assert IsDigit(s[0]) && s[0] != '-';
      NatRoundTrip(i);
    }
  }

  /** Distinct integers have distinct decimal texts. */
  lemma IntToStringInjective(a: int, b: int)
    ensures IntToString(a) == IntToString(b) <==> a == b
  {
    if IntToString(a) == IntToString(b) {
      IntRoundTrip(a);
      IntRoundTrip(b);
    }
  }
}

=== FILE: tables.dfy ===
/** The FITS binary tables the script reads, taken as abstract values. */
module Tables {
  import opened Base

  /** A numeric cell. Cells are exact reals here: the float formatting of
      the output is not modelled, so only equality and truncation matter. */
  type Num = real

  /** A binary table: its column names and its rows, each row a record of
      one cell per column. */
  datatype Table = Table(names: seq<string>, rows: seq<seq<Num>>)

  /** A FITS table is rectangular: every row has one cell per column. */
  predicate WellFormed(t: Table) {
    forall k :: 0 <= k < |t.rows| ==> |t.rows[k]| == |t.names|
  }

  /** The position of the first column called `key`, if any (lookup of a
      record field by name). */
  function FieldIndex(names: seq<string>, key: string): (r: Option<nat>)
    ensures r.Some? ==> r.value < |names| && names[r.value] == key
    ensures r.Some? ==> forall j :: 0 <= j < r.value ==> names[j] != key
    ensures r.None? <==> key !in names
  {
    if |names| == 0 then None
    else if names[0] == key then Some(0)
    else match FieldIndex(names[1..], key)
      case None => None
      case Some(j) => Some(j + 1)
  }

  /** Python's `int` of a float: truncation toward zero, which differs from
      the floor for negative values. */
  function Trunc(x: Num): (r: int)
    ensures x >= 0.0 ==> r as real <= x < r as real + 1.0
    ensures x < 0.0 ==> r as real - 1.0 < x <= r as real
  {
    if x >= 0.0 then x.Floor else -((-x).Floor)
  }
}
